=== FILE: README.md ===
# dexter, modelled in Dafny

dexter is a root-only Android command-line tool. It lists installed packages
with `pm list packages -f`. It reads the ART dexopt state from
`dumpsys package dexopt`. For each package it reports the compiler
filter/status of every architecture line. Optionally it resolves each app's
display label, from the APK or from `aapt dump badging`. It then prints a
table, blocks or JSON. Outside JSON mode, a per-status summary follows.

This project models the text processing at the core of `src/main.rs` as
pure Dafny functions over strings and sequences, and proves properties of
it:

- `DumpParser`: the dump scanner `Analyzer::new` and `Analyzer::get_info`.
  It is a left fold of one step function over the dump's lines. Its state
  is the open package (`NoPkg | Pkg(name)`) and a
  `map<string, seq<DexOptInfo>>`. The two regular expressions are
  hand-written scans:
  - `STATUS_RE` is "contains `arm64:` or `arm:`".
  - `FILTER_EXTRACT_RE` is a leftmost search for a word-boundary `status=`
    or `filter=` followed by a non-empty run of characters that are neither
    `]` nor whitespace.
- `DumpSample`: the crate's parser test as a lemma.
- `Labels`: label cleaning and the class-name heuristic of
  `Package::get_label`, and the line scan of `get_label_from_aapt`. The APK
  reader's answer and the aapt run are inputs.
- `PackageList`: the text half of `Package::fetch_list`. A line is parsed
  by stripping `package:`, splitting at the last `=` and trimming both
  halves. The result is sorted stably by name.
- `Selection` and `SelectionSample`: the loop in `main`. It applies the
  name filter, the optional label lookup and the status filter. It keeps
  the per-status counts and `total_displayed`. It also keeps, in order,
  the rows that pass the filters.
- `Text`, `Seqs`, `Options`: the Rust standard-library behaviour the above
  relies on. This covers `char::is_whitespace`, `trim`, `lines`,
  `strip_prefix`, `rsplit_once`, `find`, `contains`, the order of `String`
  and filtering. It also includes an `Option` type.

Each operation has a reference definition or an inverse with a lemma
connecting the two, or a complete pointwise contract. Examples:

- The scan is proved equal to a line-by-line reference: "the records of
  `p` are the architecture lines whose last preceding header names `p`".
- The loop in `main` is proved equal to filter/count definitions.
- Header, label and package lines have round-trip lemmas.
- The sort keeps every element (a permutation) and is stable.

## Model

| member | source | states |
|---|---|---|
| DumpParser.Step | src/main.rs:186-211 | A blank line changes nothing. A header opens its package's section and files nothing. Any other line keeps the open section. A line files nothing when no section is open or it names no architecture. Otherwise the trimmed line and its status are appended to the open package's list, and every other list is unchanged. |
| DumpParser.HeaderName | src/main.rs:192-197 | A header is exactly `"[" + name + "]"` with no space and no `=` in the name. |
| DumpParser.HeaderRoundTrip | src/main.rs:192-197 | A bracketed line is a header iff its interior has no space and no `=`. When it is one, the section it opens is named by that interior. |
| DumpParser.FindStatus | src/main.rs:167 | The search returns nothing iff no position at or after the start matches. Otherwise it returns the capture of the leftmost match. |
| DumpParser.ExtractStatus | src/main.rs:199-204 | A line without a match has status `unknown`. Otherwise the status is the greedy capture at the leftmost match. |
| DumpParser.StatusIsToken | src/main.rs:167 | Every status is non-empty and contains no whitespace and no `]`. |
| DumpParser.ArchLineIff | src/main.rs:166 | `STATUS_RE` matches a line iff `arm64:` or `arm:` occurs at some position of it. |
| DumpParser.StatusOfField | src/main.rs:167 | Take a line with no regex match before a `status=`/`filter=` field. The field follows a non-word character or starts the line, and holds a value ending at whitespace, `]` or the end of the line. That value is the line's status. |
| DumpParser.NoMatchBeforeKeyLetters | src/main.rs:167 | No match of `FILTER_EXTRACT_RE` starts inside a prefix that has no `s` and no `f`. |
| DumpParser.StatusAfterOtherField | src/main.rs:167 | A field other than `status=`/`filter=` before the status field does not get in the way: `arm64: [reason=x] [status=speed]` has status `speed`. |
| DumpParser.BoundaryAndValueRequired | src/main.rs:167 | `FILTER_EXTRACT_RE` needs a word boundary before the key and a non-empty value, so `arm64: [xstatus=speed]` and `arm64: [status=]` have status `unknown`. |
| DumpParser.Classify | src/main.rs:187-209 | A line is a header iff its trimmed form is one, and then it names that header's package. It is a record line iff its trimmed form is not a header and names an architecture, and then its record is the trimmed line with its status. |
| DumpParser.FiledUnderIff | src/main.rs:186-209 | Line `i` is filed under `name` iff it is a line of the dump, its trimmed form is not a header and names an architecture, and the last header before it is `[name]`. |
| DumpParser.ScanIsReference | src/main.rs:182-215 | After any sequence of lines the open section is the last header's. A package has a list iff some architecture line is filed under it. That list is the records of those lines in line order. |
| DumpParser.ParseIsReference | src/main.rs:182-215 | `Analyzer::new` on a dump has an entry for a package iff some line of the dump is filed under it. The entry is the records of those lines in line order. |
| DumpParser.ScanWellFormed | src/main.rs:206-209 | No package ever has an empty list. Every record holds a trimmed, non-header architecture line and that line's status. |
| DumpParser.NoHeaderNoRecords | src/main.rs:184-190 | Lines before any header leave the scanner in its initial state, whatever they contain. |
| DumpParser.UnscopedLineNotFiled | src/main.rs:198 | A record-shaped line with no header before it is filed under no package. |
| DumpParser.GetInfoOfDump | src/main.rs:217-219 | `get_info` on the parsed dump returns a package's records iff some line of the dump is filed under it. What it returns is the records of those lines in line order. |
| DumpSample.SampleParse | src/main.rs:500-518 | The test's dump parses to exactly `com.example.app` with one `speed-profile` record and `com.system.service` with one `verify` record. Any other name has no records. |
| DumpSample.TwoSections | src/main.rs:186-211 | A blank line followed by two distinct headers, each with one indented record line, yields exactly one record under each. |
| Labels.CleanLabel | src/main.rs:104 | The cleaned label is as long as the trimmed label and is itself trimmed. Every CR and LF becomes a space, and every other character is kept. |
| Labels.CleanLabelIdempotent | src/main.rs:104 | Cleaning a cleaned label changes nothing. |
| Labels.NativeLabel | src/main.rs:102-115 | The APK's label is used iff it exists, cleans to a non-empty string, and does not look like a class name. A class name has a dot, no space, differs from the package name and uses only alphanumerics, `.` and `_`. The value used is the cleaned label. |
| Labels.PackageNameAccepted | src/main.rs:107-111 | A label that cleans to the package's own non-empty name is always kept. |
| Labels.SpacedLabelAccepted | src/main.rs:107-111 | A cleaned label containing a space is always kept. |
| Labels.FirstLabel | src/main.rs:134-142 | There is no result iff no line carries a label. Otherwise the result is the label of the first line that carries one. |
| Labels.LabelOnLine | src/main.rs:135-139 | A line carries a label iff its trimmed form starts with `application-label:'` and the terminator occurs after that prefix. The label is the text up to the first terminator. |
| Labels.UnterminatedLineSkipped | src/main.rs:136-140 | A prefixed line with no terminator is passed over and the scan goes on with the next line. |
| Labels.LabelLineRoundTrip | src/main.rs:136-138 | A label line built from a label without the terminator gives that label back. |
| Labels.AaptLabel | src/main.rs:121-131 | A run that could not start or did not succeed gives no label. A successful one gives the first label line of its output. |
| Labels.ResolveLabel | src/main.rs:100-119 | The APK's label is returned when it is usable. Otherwise the result is whatever the aapt fallback gives. |
| Labels.AsWrittenFallbackNeedsU2018 | src/main.rs:100-142 | When `get_label` as written returns a label, it is the APK's usable label or, failing that, aapt succeeded and one of its output lines starts with `application-label:'`, the label and U+2018. |
| Labels.FirstLabelOnSomeLine | src/main.rs:134-142 | A label found by the scan is the label of one of the output's lines. |
| Labels.AsWrittenMissesAsciiQuote | src/main.rs:137 | A line `application-label:'<label>'` as aapt prints it carries no label for the code as written, which looks for U+2018. |
| Labels.AsWrittenFallbackFindsNothing | src/main.rs:117-142 | When the APK's label is unusable, the chain as written gets nothing from aapt's output made of that one label line. |
| Labels.FallbackFindsLabel | src/main.rs:117-142 | With the terminator corrected to `'`, the same output gives back the label. |
| Labels.ChromiumActivityRejected | src/main.rs:107-118 | `org.chromium.browser.Activity` for `org.chromium.browser` is rejected and the chain falls through to aapt, with either terminator. |
| Labels.ChromeBrowserAccepted | src/main.rs:107-111 | `Chrome Browser` is returned as it stands, with either terminator. |
| PackageList.ParseLine | src/main.rs:84-93 | A line yields a package iff its trimmed form starts with `package:` and has an `=` after it. The rest of the line is then a path, `=` and a name without `=`, and the package is the trimmed name with the trimmed path. |
| PackageList.ParseLineHalves | src/main.rs:84-93 | A line whose trimmed form is `package:`, a path, `=` and a name without `=` yields the trimmed name and the trimmed path, whatever spaces surround the `=`. |
| PackageList.ParseLineRoundTrip | src/main.rs:84-93 | A line made of padding, `package:`, a trimmed path (which may contain `=`), `=`, a trimmed name without `=` and more padding parses back to that path and name. |
| PackageList.ParseLinesMembers | src/main.rs:84-93 | The parsed list holds exactly the packages some line parses to. |
| PackageList.SortByName | src/main.rs:95 | The result is sorted by name and is a permutation of the input. |
| PackageList.InsertWithName | src/main.rs:95 | Inserting a package into a sorted list after every package of equal or smaller name appends it to the packages with its name and leaves the others' order alone. |
| PackageList.SortByNameStable | src/main.rs:95 | Packages with the same name keep their relative order. |
| PackageList.FetchList | src/main.rs:84-96 | The listing is sorted by name, is a permutation of the parsed lines, and is no longer than the number of lines. |
| PackageList.FetchListMembers | src/main.rs:84-96 | The listing holds exactly the packages some line of the text parses to. |
| Selection.NameFilter | src/main.rs:420-423 | The packages kept are exactly those whose name contains the filter, or all of them when there is no filter. |
| Selection.NameFilterAppend | src/main.rs:420-423 | Filtering a concatenation is filtering each part: the kept packages stay in their original order, duplicates included. |
| Selection.NoFilterKeepsAll | src/main.rs:422 | Without a filter the list is unchanged. |
| Selection.NameFilterKeepsSorted | src/main.rs:420-423 | Filtering a sorted listing leaves it sorted. |
| Selection.Display | src/main.rs:425-432 | Each package is paired, in order, with what the label lookup gives for it when `--verbose` or `--json` is set and with nothing otherwise. `Selection.Analyze` passes `get_label` as written as the lookup. |
| Selection.AnyStatusContains | src/main.rs:440 | True iff some record's status contains the filter string. |
| Selection.Decide | src/main.rs:437-451 | A package is kept iff there is no status filter, or it has records one of which matches. It is counted iff it is kept and has records. |
| Selection.Tally | src/main.rs:446-448 | Counting one package's records raises each status's count by the number of its records with that status. A status gains an entry iff one of the records has it. |
| Selection.Run | src/main.rs:434-452 | The loop keeps no more rows than it is given items, and counts no more packages than it keeps. |
| Selection.RunIsReference | src/main.rs:434-452 | The loop keeps exactly the packages the filters let through, in order. `total_displayed` is the number of those with records. `stats` counts, per status, the records of those packages, with an entry for exactly the statuses that occur. |
| Selection.RunEntry | src/main.rs:434-475 | Every row the loop keeps comes from a display item the filters let through, with the dump's records for its package. |
| Selection.Analyze | src/main.rs:400-475 | The whole run keeps no more rows than the listing has lines, and counts no more packages than it keeps. |
| Selection.AnalyzeEntries | src/main.rs:400-475 | Every row is a listed package whose name passes the filter, with its label exactly when labels were asked for and with its dump records. Under a status filter it has a matching record. |
| Selection.AnalyzeKeeps | src/main.rs:400-475 | Conversely, every listed package whose name passes the filter and that the status filter lets through is a row, with its label exactly when labels were asked for and with its dump records. |
| Selection.DisplayKeeps | src/main.rs:425-452 | A package that reaches the label lookup and passes the status filter is a row of the loop. |
| Selection.StatusFilterCountsEveryRecord | src/main.rs:437-448 | A package kept by the status filter adds all of its records to the counts, including ones that do not match. |
| Selection.UnknownPackageShownUncounted | src/main.rs:434-452 | Without a status filter, a package the dump does not know passes the filters but is not counted. |
| Selection.UnknownPackageSkipped | src/main.rs:449-452 | With a status filter, a package the dump does not know is skipped. |
| SelectionSample.SampleRunUnfiltered | src/main.rs:434-452 | On the test's dump with no status filter, both packages are counted, with one `speed-profile` and one `verify`. |
| SelectionSample.SampleRunSpeed | src/main.rs:437-452 | On the test's dump with the status filter `speed`, only `com.example.app` is kept and counted, and `verify` gets no entry. |
| Text.Trim | src/main.rs:187 | `trim` returns the slice between a whitespace-only prefix and a whitespace-only suffix, and neither of its ends is whitespace. |
| Text.TrimIdempotent | src/main.rs:187 | Trimming twice is trimming once. |
| Text.TrimPadded | src/main.rs:135 | Trimming a trimmed string padded with whitespace gives that string back. |
| Text.LinesOfUnlines | src/main.rs:186 | `lines` splits newline-terminated plain lines back into those lines. |
| Text.UnlinesOfLines | src/main.rs:186 | Text without `\r` that is empty or ends in a newline is rebuilt by joining its lines. |
| Text.LinesCons | src/main.rs:134 | `lines` of a first line, a newline and a rest is that line without a trailing `\r`, followed by the lines of the rest. |
| Text.SplitLast | src/main.rs:86 | `rsplit_once('=')` succeeds iff the text has an `=`. The text is the head, `=` and the tail, and the tail has no `=`. |
| Text.SplitLastRoundTrip | src/main.rs:86 | Splitting `a + "=" + b`, with no `=` in `b`, at the last `=` gives back `a` and `b`. |
| Text.Between | src/main.rs:136-138 | `strip_prefix` then `find` succeeds iff the prefix is there and the terminator follows it. The result is followed by the terminator and does not contain it. |
| Text.ContainsIff | src/main.rs:422 | `contains` holds iff the pattern occurs at some position. |
| Text.LessEqTotal | src/main.rs:95 | The string order used for sorting is total. |
| Text.LessEqTransitive | src/main.rs:95 | The string order used for sorting is transitive. |
| Text.LessEqAntisymmetric | src/main.rs:95 | The string order used for sorting is antisymmetric. |
| Seqs.FirstSome | src/main.rs:134-142 | The first-match search over lines returns nothing iff no element yields a value, and otherwise the value of the first element that does. |
| Seqs.FilterMapMembers | src/main.rs:84-93 | A loop that pushes what each element yields keeps a value iff some element yields it. |
| Seqs.FilterKeepsSorted | src/main.rs:420-423 | Filtering keeps a sorted sequence sorted. |

## Left out

- Running `pm`, `dumpsys`, `aapt` and `which`, and `check_root`. These are
  process and privilege plumbing. Their text outputs are inputs of the model.
  `Labels.AaptRun` stands for the aapt run's outcome, and `Selection.Device`
  stands for what the device answers per APK path.
- `Apk::new` and `get_application_label` belong to a foreign crate. Their
  answer is the optional `apkLabel` input. An APK that cannot be opened is
  `None`.
- The `AppType` choice of `-3`/`-s` only changes the arguments passed to
  `pm`, so it is outside the model. Its display is also left out.
- `String::from_utf8_lossy` is not modelled. Every text input is already a
  sequence of Unicode scalar values.
- The parallel label lookup (`par_iter`) is modelled as a sequential,
  order-preserving map (`Selection.Display`), because the indexed collect
  keeps order.
- All rendering is left out: colours, column widths, the verbose blocks, the
  summary layout, JSON serialisation, `clap` argument parsing and the
  missing-aapt warning. The model's result is the rows that pass the
  filters.
- `HashMap`/`BTreeMap` iteration order is not modelled. The index and
  `stats` are Dafny maps, and only lookups are stated.
- Selection.UnknownPackageShownUncounted: the entry stands for a row that
  passes the filters. In table mode (neither `--verbose` nor `--json`)
  src/main.rs:464 prints nothing for a package without records.
- DumpParser.MatchesAt: the regex's `\b` is defined by Unicode `\w`
  (letters, marks, decimal digits, connector punctuation), which the model
  approximates by ASCII letters, digits and `_`. A non-ASCII letter before
  `status=` counts as a boundary in the model. It does not in the regex.
- Labels.IsIdentifierChar: `char::is_alphanumeric` is approximated by ASCII
  letters and digits. Take a cleaned label that differs from the package
  name, contains `.` and no space, and is made only of alphanumerics, `.`
  and `_`. If at least one of its alphanumerics is not ASCII (a letter, or
  a numeric such as `٣`), the model keeps it but the code rejects it.
- Text.IsWhitespace covers exactly the Unicode `White_Space` characters,
  which `trim` and `\s` use. No other Unicode property is modelled.

## Findings

| source | as written | input that shows it | evidently intended | confidence | as-written member | corrected member |
|---|---|---|---|---|---|---|
| src/main.rs:137 | After `application-label:'`, the label is ended at the first U+2018 (LEFT SINGLE QUOTATION MARK). | aapt output line `application-label:'Chrome'`: it has no U+2018, so the line is skipped and the fallback returns `None`. | End the label at the ASCII apostrophe that closes it, giving `Chrome`. | not executed; high, since aapt quotes values with ASCII apostrophes, the same character that ends the prefix being stripped | Labels.AsWrittenFallbackFindsNothing | Labels.FallbackFindsLabel |

The whole label chain is written once, `Labels.ResolveLabel`, with the
terminator as a parameter. `Labels.GetLabelAsWritten` uses U+2018, and the
model of `main` (`Selection.LabelOf`) uses it, so a label that only aapt
can supply is absent there, as in the code. `Labels.GetLabel` uses the
apostrophe and is the corrected chain; `Labels.FallbackFindsLabel` proves
that it recovers the label.

=== FILE: dump_parser.dfy ===
/**
 * The dexopt dump parser (`Analyzer::new` and `Analyzer::get_info`).
 *
 * The dump is scanned line by line with one piece of state, the package
 * whose section is open. A bracketed header line opens a section; inside a
 * section every architecture line (one mentioning `arm64:` or `arm:`)
 * becomes a record whose status is the value of its first `status=` or
 * `filter=` field, or `unknown`. Everything else is ignored.
 */
module DumpParser {
  import opened Options
  import opened Text
  import opened Seqs

  /** One architecture line of a package's section: the trimmed line and its status token. */
  datatype DexOptInfo = DexOptInfo(rawLine: string, status: string)

  /** Package name to its records in dump order; an absent key means the dump never filed a record under it. */
  type Index = map<string, seq<DexOptInfo>>

  /** The package whose section is open, if any (`current_pkg`). */
  datatype Current = NoPkg | Pkg(name: string)

  datatype Scanner = Scanner(current: Current, results: Index)

  const Unknown: string := "unknown"
  const StatusKey: string := "status="
  const FilterKey: string := "filter="

  // ---------------------------------------------------------------------------
  // Header lines

  /** A trimmed line of the form `[name]` with no space and no `=` anywhere. */
  predicate IsHeader(t: string) {
    |t| > 0 && t[0] == '[' && t[|t| - 1] == ']' && ' ' !in t && '=' !in t
  }

  /** The package a header names: the text between its brackets. */
  function HeaderName(t: string): (name: string)
    requires IsHeader(t)
    ensures t == "[" + name + "]"
    ensures ' ' !in name && '=' !in name
  {
    assert t == [t[0]] + t[1..|t| - 1] + [t[|t| - 1]];
    t[1..|t| - 1]
  }

  /** A bracketed line is a header exactly when its interior has no space and no `=`, and the header names that interior. */
  lemma HeaderRoundTrip(name: string)
    ensures IsHeader("[" + name + "]") <==> ' ' !in name && '=' !in name
    ensures IsHeader("[" + name + "]") ==> HeaderName("[" + name + "]") == name
  {
    var t := "[" + name + "]";
    assert t[1..|t| - 1] == name;
    assert forall c :: c in t <==> c == '[' || c == ']' || c in name;
  }

  // ---------------------------------------------------------------------------
  // The two regular expressions

  /** `STATUS_RE`, `(arm64:|arm:)`: the line names an architecture. */
  predicate IsArchLine(t: string) {
    Contains(t, "arm64:") || Contains(t, "arm:")
  }

  /** `STATUS_RE` matches iff one of its two alternatives occurs somewhere in the line. */
  lemma ArchLineIff(t: string)
    ensures IsArchLine(t) <==> (exists i :: OccursAt(t, "arm64:", i)) || (exists i :: OccursAt(t, "arm:", i))
  {
    ContainsIff(t, "arm64:");
    ContainsIff(t, "arm:");
  }

  /** The class `[^]\s]` that the status capture is made of. */
  predicate IsCaptureChar(c: char) {
    c != ']' && !IsWhitespace(c)
  }

  /** Length of the longest run of capture characters starting at index `q`. */
  function RunLength(s: string, q: nat): (n: nat)
    requires q <= |s|
    ensures q + n <= |s|
    ensures forall k :: q <= k < q + n ==> IsCaptureChar(s[k])
    ensures q + n == |s| || !IsCaptureChar(s[q + n])
    decreases |s| - q
  {
    if q < |s| && IsCaptureChar(s[q]) then 1 + RunLength(s, q + 1) else 0
  }

  /**
   * `FILTER_EXTRACT_RE`, `\b(?:status|filter)=([^]\s]+)`, matches at index `p`:
   * a word boundary, one of the two keys, then at least one capture character.
   * Both keys are seven characters long.
   */
  predicate MatchesAt(s: string, p: int) {
    && 0 <= p
    && p + 7 < |s|
    && (p == 0 || !IsWordChar(s[p - 1]))
    && (s[p..p + 7] == StatusKey || s[p..p + 7] == FilterKey)
    && IsCaptureChar(s[p + 7])
  }

  /** The greedy capture group of a match at `p`. */
  function CaptureAt(s: string, p: int): string
    requires MatchesAt(s, p)
  {
    s[p + 7..p + 7 + RunLength(s, p + 7)]
  }

  /** `p` is where the leftmost match of `FILTER_EXTRACT_RE` starts. */
  ghost predicate IsFirstMatch(s: string, p: int) {
    MatchesAt(s, p) && forall q :: 0 <= q < p ==> !MatchesAt(s, q)
  }

  /** Leftmost-first search for a match starting at or after `p`; its capture if found. */
  function FindStatus(s: string, p: nat): (r: Option<string>)
    requires p <= |s|
    ensures r.None? ==> forall q :: p <= q ==> !MatchesAt(s, q)
    ensures r.Some? ==> exists q :: p <= q && MatchesAt(s, q) && r.value == CaptureAt(s, q)
                                    && forall q' :: p <= q' < q ==> !MatchesAt(s, q')
    decreases |s| - p
  {
    if p == |s| then None
    else if MatchesAt(s, p) then Some(CaptureAt(s, p))
    else FindStatus(s, p + 1)
  }

  /** The status of a record line: the leftmost capture, or `unknown` when the line has no match. */
  function ExtractStatus(t: string): (r: string)
    ensures (forall q :: !MatchesAt(t, q)) ==> r == Unknown
    ensures forall p :: IsFirstMatch(t, p) ==> r == CaptureAt(t, p)
  {
    FindStatus(t, 0).GetOr(Unknown)
  }

  lemma CaptureIsToken(s: string, q: int)
    requires MatchesAt(s, q)
    ensures |CaptureAt(s, q)| > 0
    ensures forall k :: 0 <= k < |CaptureAt(s, q)| ==> IsCaptureChar(CaptureAt(s, q)[k])
  {
    assert IsCaptureChar(s[q + 7]);
  }

  lemma UnknownIsToken()
    ensures forall k :: 0 <= k < |Unknown| ==> IsCaptureChar(Unknown[k])
  {
    forall k | 0 <= k < |Unknown|
      ensures IsCaptureChar(Unknown[k])
    {
      assert Unknown[k] in "unknown";
    }
  }

  /** A status is always a non-empty token without whitespace or `]`. */
  lemma StatusIsToken(t: string)
    ensures |ExtractStatus(t)| > 0
    ensures forall k :: 0 <= k < |ExtractStatus(t)| ==> IsCaptureChar(ExtractStatus(t)[k])
  {
    var r := FindStatus(t, 0);
    if r.Some? {
      var q :| 0 <= q && MatchesAt(t, q) && r.value == CaptureAt(t, q);
      CaptureIsToken(t, q);
    } else {
      UnknownIsToken();
    }
  }

  /**
   * A line with no match before its first `status=`/`filter=` field, that
   * field following a non-word character and holding a value that ends at
   * whitespace, `]` or the end of the line, has that value as its status.
   */
  lemma StatusOfField(a: string, key: string, v: string, b: string)
    requires key == StatusKey || key == FilterKey
    requires forall q :: 0 <= q < |a| ==> !MatchesAt(a + key + v + b, q)
    requires |a| == 0 || !IsWordChar(a[|a| - 1])
    requires |v| > 0 && forall k :: 0 <= k < |v| ==> IsCaptureChar(v[k])
    requires |b| == 0 || !IsCaptureChar(b[0])
    ensures ExtractStatus(a + key + v + b) == v
  {
    var s := a + key + v + b;
    var p := |a|;
    assert s[p..p + 7] == key;
    assert s[p + 7] == v[0];
    assert MatchesAt(s, p);
    assert IsFirstMatch(s, p);
    var e := p + 7 + |v|;
    assert forall k :: p + 7 <= k < e ==> s[k] == v[k - p - 7];
    assert e == |s| || s[e] == b[0];
    assert RunLength(s, p + 7) == |v|;
    assert CaptureAt(s, p) == s[p + 7..p + 7 + |v|] == v;
  }

  /** Both keys start with `s` or `f`, so no match starts inside a prefix without those letters. */
  lemma NoMatchBeforeKeyLetters(a: string, key: string, v: string, b: string)
    requires 's' !in a && 'f' !in a
    ensures forall q :: 0 <= q < |a| ==> !MatchesAt(a + key + v + b, q)
  {
    var s := a + key + v + b;
    forall q | 0 <= q < |a|
      ensures !MatchesAt(s, q)
    {
      assert s[q] == a[q];
      if q + 7 < |s| {
        assert s[q..q + 7][0] == s[q];
      }
    }
  }

  /** The field need not be the first `=`: `arm64: [reason=x] [status=speed]` has status `speed`. */
  lemma StatusAfterOtherField()
    ensures ExtractStatus("arm64: [reason=x] [status=speed]") == "speed"
  {
    var a, v, b := "arm64: [reason=x] [", "speed", "]";
    var s := a + StatusKey + v + b;
    assert s == "arm64: [reason=x] [status=speed]";
    forall q | 0 <= q < |a|
      ensures !MatchesAt(s, q)
    {
      if q + 7 < |s| {
        assert s[q..q + 7][0] == s[q];
        assert s[q..q + 7][6] == s[q + 6];
      }
    }
    StatusOfField(a, StatusKey, v, b);
  }

  /**
   * The key needs a word boundary before it and at least one value
   * character after it: `xstatus=speed` and `status=]` are no match, so
   * such lines are `unknown`.
   */
  lemma BoundaryAndValueRequired()
    ensures ExtractStatus("arm64: [xstatus=speed]") == Unknown
    ensures ExtractStatus("arm64: [status=]") == Unknown
  {
    var s := "arm64: [xstatus=speed]";
    forall q
      ensures !MatchesAt(s, q)
    {
      if 0 <= q && q + 7 < |s| {
        assert s[q..q + 7][0] == s[q];
        assert s[q..q + 7][1] == s[q + 1];
      }
    }
    var s' := "arm64: [status=]";
    forall q
      ensures !MatchesAt(s', q)
    {
      if 0 <= q && q + 7 < |s'| {
        assert s'[q..q + 7][0] == s'[q];
      }
    }
  }

  // ---------------------------------------------------------------------------
  // The scanner

  function Record(t: string): DexOptInfo {
    DexOptInfo(t, ExtractStatus(t))
  }

  /** Appends `info` to the list under `name`, creating it on first use (`entry(..).or_default().push(..)`). */
  function Push(m: Index, name: string, info: DexOptInfo): (r: Index)
    ensures r.Keys == m.Keys + {name}
    ensures r[name] == (if name in m then m[name] else []) + [info]
    ensures forall k :: k in m && k != name ==> r[k] == m[k]
  {
    m[name := (if name in m then m[name] else []) + [info]]
  }

  /** One iteration of the loop over the dump's lines. */
  function Step(sc: Scanner, line: string): (r: Scanner)
    // A blank line changes nothing.
    ensures Trim(line) == [] ==> r == sc
    // A header opens its package's section and files nothing.
    ensures IsHeader(Trim(line)) ==> r == Scanner(Pkg(HeaderName(Trim(line))), sc.results)
    // Any other line leaves the open section as it is ...
    ensures !IsHeader(Trim(line)) ==> r.current == sc.current
    // ... and files nothing when no section is open or it is no architecture line;
    ensures (sc.current.NoPkg? || !IsArchLine(Trim(line))) ==> r.results == sc.results
    // otherwise it is appended, trimmed, to the open package's list and nothing else changes.
    ensures sc.current.Pkg? && !IsHeader(Trim(line)) && IsArchLine(Trim(line)) ==>
              && r.results.Keys == sc.results.Keys + {sc.current.name}
              && r.results[sc.current.name]
                 == (if sc.current.name in sc.results then sc.results[sc.current.name] else [])
                    + [DexOptInfo(Trim(line), ExtractStatus(Trim(line)))]
              && forall k :: k in sc.results && k != sc.current.name ==> r.results[k] == sc.results[k]
  {
    var t := Trim(line);
    if |t| == 0 then sc
    else if IsHeader(t) then sc.(current := Pkg(HeaderName(t)))
    else match sc.current
      case NoPkg => sc
      case Pkg(name) =>
        if IsArchLine(t) then sc.(results := Push(sc.results, name, Record(t))) else sc
  }

  const Init: Scanner := Scanner(NoPkg, map[])

  /** The loop of `Analyzer::new` over a sequence of lines: a left fold of `Step` from `Init`. */
  function Scan(lines: seq<string>): Scanner
    decreases |lines|
  {
    if |lines| == 0 then Init else Step(Scan(lines[..|lines| - 1]), lines[|lines| - 1])
  }

  lemma ScanSnoc(lines: seq<string>, line: string)
    ensures Scan(lines + [line]) == Step(Scan(lines), line)
  {
    assert (lines + [line])[..|lines|] == lines;
  }

  /** `Analyzer::new`: the index of a dump text. */
  function Parse(dump: string): Index {
    Scan(Lines(dump)).results
  }

  /** `Analyzer::get_info`: the records of one package, if the dump filed any. */
  function GetInfo(index: Index, name: string): (r: Option<seq<DexOptInfo>>)
    ensures r.Some? <==> name in index
    ensures r.Some? ==> r.value == index[name]
  {
    if name in index then Some(index[name]) else None
  }

  // ---------------------------------------------------------------------------
  // A line-by-line reference for the scan

  /** What one line means to the scan, decided from its trimmed form. */
  datatype LineKind = HeaderLine(name: string) | RecordLine(info: DexOptInfo) | OtherLine

  /**
   * A header opens a section, a non-header architecture line is a record,
   * and every other line (blank lines included) is passed over.
   */
  function Classify(line: string): (k: LineKind)
    ensures k.HeaderLine? <==> IsHeader(Trim(line))
    ensures k.HeaderLine? ==> k.name == HeaderName(Trim(line))
    ensures k.RecordLine? <==> !IsHeader(Trim(line)) && IsArchLine(Trim(line))
    ensures k.RecordLine? ==> k.info == Record(Trim(line))
  {
    var t := Trim(line);
    if IsHeader(t) then HeaderLine(HeaderName(t))
    else if IsArchLine(t) then RecordLine(Record(t))
    else OtherLine
  }

  /** The effect of a line of kind `k`. */
  function Advance(sc: Scanner, k: LineKind): Scanner {
    match k
    case HeaderLine(name) => sc.(current := Pkg(name))
    case RecordLine(info) =>
      if sc.current.Pkg? then sc.(results := Push(sc.results, sc.current.name, info)) else sc
    case OtherLine => sc
  }

  /** A step depends on the line only through its kind; the blank-line shortcut is one of the ignored cases. */
  lemma StepByKind(sc: Scanner, line: string)
    ensures Step(sc, line) == Advance(sc, Classify(line))
  {
    var t := Trim(line);
    if |t| == 0 {
      assert !IsArchLine(t);
    }
  }

  /** The kind of every line, in order. */
  function Kinds(lines: seq<string>): (ks: seq<LineKind>)
    ensures |ks| == |lines|
  {
    MapSeq(lines, Classify)
  }

  lemma KindsAt(lines: seq<string>, i: nat)
    requires i < |lines|
    ensures Kinds(lines)[i] == Classify(lines[i])
  {
    MapSeqAt(lines, Classify, i);
  }

  lemma KindsPrefix(lines: seq<string>, m: nat)
    requires m <= |lines|
    ensures Kinds(lines)[..m] == Kinds(lines[..m])
  {
    MapSeqPrefix(lines, Classify, m);
  }

  /** The scan replayed over the kinds of the lines. */
  function ScanKinds(ks: seq<LineKind>): Scanner
    decreases |ks|
  {
    if |ks| == 0 then Init else Advance(ScanKinds(ks[..|ks| - 1]), ks[|ks| - 1])
  }

  lemma {:induction false} ScanByKinds(lines: seq<string>)
    ensures Scan(lines) == ScanKinds(Kinds(lines))
    decreases |lines|
  {
    if |lines| > 0 {
      var n := |lines| - 1;
      ScanByKinds(lines[..n]);
      KindsPrefix(lines, n);
      KindsAt(lines, n);
      StepByKind(Scan(lines[..n]), lines[n]);
    }
  }

  /** The package named by the last header line among `ks`, if there is one. */
  function LastHeaderIn(ks: seq<LineKind>): Current
    decreases |ks|
  {
    if |ks| == 0 then NoPkg
    else if ks[|ks| - 1].HeaderLine? then Pkg(ks[|ks| - 1].name)
    else LastHeaderIn(ks[..|ks| - 1])
  }

  /** Entry `i` is a record line and the last header line before it names `name`. */
  predicate FiledAt(ks: seq<LineKind>, i: int, name: string) {
    0 <= i < |ks| && ks[i].RecordLine? && LastHeaderIn(ks[..i]) == Pkg(name)
  }

  /** One record per entry filed under `name`, in order. */
  function RecordsAt(ks: seq<LineKind>, name: string): seq<DexOptInfo>
    decreases |ks|
  {
    if |ks| == 0 then []
    else
      var n := |ks| - 1;
      RecordsAt(ks[..n], name) + (if FiledAt(ks, n, name) then [ks[n].info] else [])
  }

  /** The package named by the last header among `lines`, if there is one. */
  function LastHeader(lines: seq<string>): Current {
    LastHeaderIn(Kinds(lines))
  }

  /** Line `i` is a record line (trimmed, no header, an architecture line) and the last header before it names `name`. */
  predicate FiledUnder(lines: seq<string>, i: int, name: string) {
    FiledAt(Kinds(lines), i, name)
  }

  /** One record per line filed under `name`, in line order: each the trimmed line and its status. */
  function RecordsOf(lines: seq<string>, name: string): seq<DexOptInfo> {
    RecordsAt(Kinds(lines), name)
  }

  /** Being filed, spelt out on the line itself. */
  lemma FiledUnderIff(lines: seq<string>, i: int, name: string)
    ensures FiledUnder(lines, i, name) <==>
              && 0 <= i < |lines|
              && !IsHeader(Trim(lines[i]))
              && IsArchLine(Trim(lines[i]))
              && LastHeader(lines[..i]) == Pkg(name)
  {
    if 0 <= i < |lines| {
      KindsPrefix(lines, i);
      KindsAt(lines, i);
    }
  }

  lemma {:induction false} ScanKindsCurrent(ks: seq<LineKind>)
    ensures ScanKinds(ks).current == LastHeaderIn(ks)
    decreases |ks|
  {
    if |ks| > 0 {
      ScanKindsCurrent(ks[..|ks| - 1]);
    }
  }

  /** The list the scan keeps under `name`, absent read as empty, is the reference list; no list is empty. */
  lemma {:induction false} ScanKindsEntry(ks: seq<LineKind>, name: string)
    ensures var r := ScanKinds(ks).results;
            (if name in r then r[name] else []) == RecordsAt(ks, name)
    ensures name in ScanKinds(ks).results ==> |ScanKinds(ks).results[name]| > 0
    decreases |ks|
  {
    if |ks| > 0 {
      var n := |ks| - 1;
      ScanKindsEntry(ks[..n], name);
      ScanKindsCurrent(ks[..n]);
    }
  }

  lemma FiledAtPrefix(ks: seq<LineKind>, m: nat, i: int, name: string)
    requires i < m <= |ks|
    ensures FiledAt(ks[..m], i, name) <==> FiledAt(ks, i, name)
  {
    if 0 <= i {
      assert ks[..m][..i] == ks[..i];
    }
  }

  /** The reference list of `name` is non-empty exactly when some entry is filed under `name`. */
  lemma {:induction false} RecordsAtNonEmpty(ks: seq<LineKind>, name: string)
    ensures RecordsAt(ks, name) != [] <==> exists i :: FiledAt(ks, i, name)
    decreases |ks|
  {
    if |ks| > 0 {
      var n := |ks| - 1;
      var init := ks[..n];
      RecordsAtNonEmpty(init, name);
      if exists i :: FiledAt(init, i, name) {
        var i :| FiledAt(init, i, name);
        FiledAtPrefix(ks, n, i, name);
      }
      if exists i :: FiledAt(ks, i, name) {
        var i :| FiledAt(ks, i, name);
        if i < n {
          FiledAtPrefix(ks, n, i, name);
        }
      }
    }
  }

  lemma ScanKindsIsReference(ks: seq<LineKind>)
    ensures ScanKinds(ks).current == LastHeaderIn(ks)
    ensures forall name :: name in ScanKinds(ks).results <==> exists i :: FiledAt(ks, i, name)
    ensures forall name :: name in ScanKinds(ks).results ==> ScanKinds(ks).results[name] == RecordsAt(ks, name)
  {
    ScanKindsCurrent(ks);
    forall name
      ensures name in ScanKinds(ks).results <==> exists i :: FiledAt(ks, i, name)
      ensures name in ScanKinds(ks).results ==> ScanKinds(ks).results[name] == RecordsAt(ks, name)
    {
      ScanKindsEntry(ks, name);
      RecordsAtNonEmpty(ks, name);
    }
  }

  /**
   * The scan agrees with the reference: its open section is the last header's,
   * a package has a list exactly when some line is filed under it, and that
   * list holds one record per such line, in order.
   */
  lemma ScanIsReference(lines: seq<string>)
    ensures Scan(lines).current == LastHeader(lines)
    ensures forall name :: name in Scan(lines).results <==> exists i :: FiledUnder(lines, i, name)
    ensures forall name :: name in Scan(lines).results ==> Scan(lines).results[name] == RecordsOf(lines, name)
  {
    var ks := Kinds(lines);
    ScanByKinds(lines);
    ScanKindsIsReference(ks);
    forall name
      ensures name in Scan(lines).results <==> exists i :: FiledUnder(lines, i, name)
    {
      if name in Scan(lines).results {
        var i :| FiledAt(ks, i, name);
        assert FiledUnder(lines, i, name);
      }
      if exists i :: FiledUnder(lines, i, name) {
        var i :| FiledUnder(lines, i, name);
        assert FiledAt(ks, i, name);
      }
    }
  }

  /** `Analyzer::new` files a package exactly when some line of the dump is filed under it, with one record per such line. */
  lemma ParseIsReference(dump: string, name: string)
    ensures name in Parse(dump) <==> exists i :: FiledUnder(Lines(dump), i, name)
    ensures name in Parse(dump) ==> Parse(dump)[name] == RecordsOf(Lines(dump), name)
  {
    ScanIsReference(Lines(dump));
  }

  /** `get_info` on the parsed dump: the package's filed records, or nothing when no line is filed under it. */
  lemma GetInfoOfDump(dump: string, name: string)
    ensures GetInfo(Parse(dump), name)
            == if exists i :: FiledUnder(Lines(dump), i, name) then Some(RecordsOf(Lines(dump), name)) else None
  {
    ParseIsReference(dump, name);
  }

  // ---------------------------------------------------------------------------
  // Invariants of the index

  /** What every filed record satisfies: its line is trimmed, is no header, names an architecture, and carries that line's status. */
  predicate IsFiledRecord(info: DexOptInfo) {
    && IsTrimmed(info.rawLine)
    && !IsHeader(info.rawLine)
    && IsArchLine(info.rawLine)
    && info.status == ExtractStatus(info.rawLine)
  }

  /** No key has an empty list, and every record is a filed record. */
  ghost predicate WellFormed(index: Index) {
    forall name :: name in index ==>
      |index[name]| > 0 && forall k :: 0 <= k < |index[name]| ==> IsFiledRecord(index[name][k])
  }

  lemma PushWellFormed(m: Index, name: string, info: DexOptInfo)
    requires WellFormed(m) && IsFiledRecord(info)
    ensures WellFormed(Push(m, name, info))
  {
    var r := Push(m, name, info);
    forall k | k in r
      ensures |r[k]| > 0 && forall j :: 0 <= j < |r[k]| ==> IsFiledRecord(r[k][j])
    {
      if k != name {
        assert r[k] == m[k];
      }
    }
  }

  lemma StepWellFormed(sc: Scanner, line: string)
    requires WellFormed(sc.results)
    ensures WellFormed(Step(sc, line).results)
  {
    var k := Classify(line);
    StepByKind(sc, line);
    if k.RecordLine? && sc.current.Pkg? {
      assert IsFiledRecord(k.info);
      PushWellFormed(sc.results, sc.current.name, k.info);
    }
  }

  lemma {:induction false} ScanWellFormed(lines: seq<string>)
    ensures WellFormed(Scan(lines).results)
    decreases |lines|
  {
    if |lines| > 0 {
      var n := |lines| - 1;
      ScanWellFormed(lines[..n]);
      StepWellFormed(Scan(lines[..n]), lines[n]);
    }
  }

  lemma {:induction false} NoHeaderKinds(ks: seq<LineKind>)
    requires forall i :: 0 <= i < |ks| ==> !ks[i].HeaderLine?
    ensures ScanKinds(ks) == Init && LastHeaderIn(ks) == NoPkg
    decreases |ks|
  {
    if |ks| > 0 {
      NoHeaderKinds(ks[..|ks| - 1]);
    }
  }

  /** Until the first header nothing is filed, whatever the lines look like. */
  lemma NoHeaderNoRecords(lines: seq<string>)
    requires forall i :: 0 <= i < |lines| ==> !IsHeader(Trim(lines[i]))
    ensures Scan(lines) == Init
    ensures LastHeader(lines) == NoPkg
  {
    ScanByKinds(lines);
    forall i | 0 <= i < |lines|
      ensures !Kinds(lines)[i].HeaderLine?
    {
      KindsAt(lines, i);
    }
    NoHeaderKinds(Kinds(lines));
  }

  /** A line with no header before it is filed under no package. */
  lemma UnscopedLineNotFiled(lines: seq<string>, i: nat, name: string)
    requires i < |lines|
    requires forall j :: 0 <= j < i ==> !IsHeader(Trim(lines[j]))
    ensures !FiledUnder(lines, i, name)
  {
    var ks := Kinds(lines)[..i];
    forall j | 0 <= j < i
      ensures !ks[j].HeaderLine?
    {
      KindsAt(lines, j);
    }
    NoHeaderKinds(ks);
  }
}

=== FILE: dump_sample.dfy ===
/** The crate's own parser test, `test_analyzer_parsing`, as a lemma about the model. */
module DumpSample {
  import opened Options
  import opened Text
  import opened DumpParser

  const AppHeader: string := "[com.example.app]"
  const AppLine: string := "arm64: [" + StatusKey + "speed-profile" + "] [reason=bg-dexopt] [primary-abi]"
  const ServiceHeader: string := "[com.system.service]"
  const ServiceLine: string := "arm64: [" + StatusKey + "verify" + "] [reason=prebuilt]"

  const SampleLines: seq<string> := [""] + [AppHeader] + ["  " + AppLine] + [ServiceHeader] + ["  " + ServiceLine]

  /** The test's raw string: an empty first line, then the two sections, each line ending in a newline. */
  const SampleDump: string := Unlines(SampleLines)

  lemma SampleDumpLines()
    ensures Lines(SampleDump) == SampleLines
  {
    assert IsPlainLine(AppHeader) && IsPlainLine(ServiceHeader);
    assert IsPlainLine("  " + AppLine) && IsPlainLine("  " + ServiceLine);
    LinesOfUnlines(SampleLines);
  }

  lemma IndentedTrim(t: string)
    requires IsTrimmed(t)
    ensures Trim("  " + t) == t
  {
    TrimPadded("  ", t, "");
    assert "  " + t + "" == "  " + t;
  }

  lemma AppLineStatus()
    ensures IsArchLine(AppLine) && !IsHeader(AppLine)
    ensures ExtractStatus(AppLine) == "speed-profile"
  {
    ContainsInfix("", "arm64:", AppLine[6..]);
    assert "" + "arm64:" + AppLine[6..] == AppLine;
    NoMatchBeforeKeyLetters("arm64: [", StatusKey, "speed-profile", "] [reason=bg-dexopt] [primary-abi]");
    StatusOfField("arm64: [", StatusKey, "speed-profile", "] [reason=bg-dexopt] [primary-abi]");
  }

  lemma ServiceLineStatus()
    ensures IsArchLine(ServiceLine) && !IsHeader(ServiceLine)
    ensures ExtractStatus(ServiceLine) == "verify"
  {
    ContainsInfix("", "arm64:", ServiceLine[6..]);
    assert "" + "arm64:" + ServiceLine[6..] == ServiceLine;
    NoMatchBeforeKeyLetters("arm64: [", StatusKey, "verify", "] [reason=prebuilt]");
    StatusOfField("arm64: [", StatusKey, "verify", "] [reason=prebuilt]");
  }

  lemma AppHeaderName()
    ensures IsHeader(AppHeader) && HeaderName(AppHeader) == "com.example.app"
  {
    HeaderRoundTrip("com.example.app");
    assert AppHeader == "[" + "com.example.app" + "]";
  }

  lemma ServiceHeaderName()
    ensures IsHeader(ServiceHeader) && HeaderName(ServiceHeader) == "com.system.service"
  {
    HeaderRoundTrip("com.system.service");
    assert ServiceHeader == "[" + "com.system.service" + "]";
  }

  lemma HeaderStep(sc: Scanner, h: string)
    requires IsHeader(h)
    ensures Step(sc, h) == Scanner(Pkg(HeaderName(h)), sc.results)
  {
    TrimOfTrimmed(h);
  }

  lemma RecordStep(sc: Scanner, r: string)
    requires sc.current.Pkg? && sc.current.name !in sc.results
    requires IsTrimmed(r) && !IsHeader(r) && IsArchLine(r)
    ensures Step(sc, "  " + r) == Scanner(sc.current, sc.results[sc.current.name := [Record(r)]])
  {
    var line := "  " + r;
    IndentedTrim(r);
    assert Trim(line) == r;
    var name := sc.current.name;
    assert Step(sc, line) == sc.(results := Push(sc.results, name, Record(r)));
    assert [] + [Record(r)] == [Record(r)];
  }

  lemma BlankStep(sc: Scanner)
    ensures Step(sc, "") == sc
  {
    assert Trim("") == "";
  }

  /** Scanning one more line is one more step. */
  lemma ScanNext(lines: seq<string>, line: string, sc: Scanner)
    requires Scan(lines) == sc
    ensures Scan(lines + [line]) == Step(sc, line)
  {
    ScanSnoc(lines, line);
  }

  /** A blank first line leaves the scanner where it started. */
  lemma ScanBlank()
    ensures Scan([""]) == Init
  {
    BlankStep(Init);
    ScanNext([], "", Init);
    assert [] + [""] == [""];
  }

  /** A header line opens its section and keeps what was filed. */
  lemma HeaderNext(lines: seq<string>, h: string, sc: Scanner)
    requires Scan(lines) == sc && IsHeader(h)
    ensures Scan(lines + [h]) == Scanner(Pkg(HeaderName(h)), sc.results)
  {
    ScanNext(lines, h, sc);
    HeaderStep(sc, h);
  }

  /** The first indented record of an open section is filed under that section's name. */
  lemma RecordNext(lines: seq<string>, r: string, sc: Scanner)
    requires Scan(lines) == sc
    requires sc.current.Pkg? && sc.current.name !in sc.results
    requires IsTrimmed(r) && !IsHeader(r) && IsArchLine(r)
    ensures Scan(lines + ["  " + r]) == Scanner(sc.current, sc.results[sc.current.name := [Record(r)]])
  {
    ScanNext(lines, "  " + r, sc);
    RecordStep(sc, r);
  }

  /** A header followed by one indented record opens the section and files that one record. */
  lemma SectionNext(lines: seq<string>, h: string, r: string, sc: Scanner)
    requires Scan(lines) == sc && IsHeader(h) && HeaderName(h) !in sc.results
    requires IsTrimmed(r) && !IsHeader(r) && IsArchLine(r)
    ensures Scan(lines + [h] + ["  " + r]) == Scanner(Pkg(HeaderName(h)), sc.results[HeaderName(h) := [Record(r)]])
  {
    HeaderNext(lines, h, sc);
    RecordNext(lines + [h], r, Scanner(Pkg(HeaderName(h)), sc.results));
  }

  /** Two sections with one indented record each, after a blank line. */
  lemma TwoSections(h1: string, r1: string, h2: string, r2: string)
    requires IsHeader(h1) && IsHeader(h2) && HeaderName(h1) != HeaderName(h2)
    requires IsTrimmed(r1) && !IsHeader(r1) && IsArchLine(r1)
    requires IsTrimmed(r2) && !IsHeader(r2) && IsArchLine(r2)
    ensures Scan([""] + [h1] + ["  " + r1] + [h2] + ["  " + r2]).results
            == map[HeaderName(h1) := [Record(r1)], HeaderName(h2) := [Record(r2)]]
  {
    var n1 := HeaderName(h1);
    ScanBlank();
    SectionNext([""], h1, r1, Init);
    SectionNext([""] + [h1] + ["  " + r1], h2, r2, Scanner(Pkg(n1), map[n1 := [Record(r1)]]));
  }

  /** The sample's lines scan to one record under each of the two packages. */
  lemma SampleScan()
    ensures Scan(SampleLines).results == map[
              "com.example.app" := [DexOptInfo(AppLine, "speed-profile")],
              "com.system.service" := [DexOptInfo(ServiceLine, "verify")]]
  {
    AppLineStatus();
    ServiceLineStatus();
    AppHeaderName();
    ServiceHeaderName();
    assert AppLine[0] == 'a' && AppLine[|AppLine| - 1] == ']';
    assert ServiceLine[0] == 'a' && ServiceLine[|ServiceLine| - 1] == ']';
    TwoSections(AppHeader, AppLine, ServiceHeader, ServiceLine);
  }

  /**
   * Parsing the sample files one record under each of the two packages, with
   * the statuses the test expects, and nothing under any other name.
   */
  lemma SampleParse()
    ensures Parse(SampleDump) == map[
              "com.example.app" := [DexOptInfo(AppLine, "speed-profile")],
              "com.system.service" := [DexOptInfo(ServiceLine, "verify")]]
    ensures GetInfo(Parse(SampleDump), "non.existent") == None
  {
    SampleDumpLines();
    SampleScan();
  }
}

=== FILE: labels.dfy ===
/**
 * Display-label resolution (`Package::get_label` and `get_label_from_aapt`).
 *
 * Two strategies are tried in order. The first reads the label declared in
 * the APK, cleans it, and rejects it when it looks like an internal class
 * name. The second scans the text `aapt dump badging` prints for the
 * `application-label:'` field. The APK reader and the aapt process are
 * outside the model: their results arrive as parameters.
 */
module Labels {
  import opened Options
  import opened Text
  import opened Seqs

  /** What running `aapt dump badging <path>` gave: it could not be started, or it exited. */
  datatype AaptRun = NotStarted | Exited(success: bool, stdout: string)

  /** The prefix of the badging line that carries the label. */
  const LabelField: string := "application-label:'"

  /** The terminator `get_label_from_aapt` searches for: U+2018, LEFT SINGLE QUOTATION MARK. */
  const AsWrittenQuote: char := '\U{2018}'

  /** The terminator aapt prints after the label: the ASCII apostrophe that also ends `LabelField`. */
  const AsciiQuote: char := '\''

  predicate IsLineBreak(c: char) {
    c == '\r' || c == '\n'
  }

  // ---------------------------------------------------------------------------
  // Strategy 1: the label the APK declares

  /** Each carriage return or line feed becomes one space; every other character stays. */
  function SpaceLineBreaks(s: string): (r: string)
    ensures |r| == |s|
    ensures forall i :: 0 <= i < |s| ==> r[i] == (if IsLineBreak(s[i]) then ' ' else s[i])
  {
    seq(|s|, i requires 0 <= i < |s| => if IsLineBreak(s[i]) then ' ' else s[i])
  }

  /**
   * `label.trim().replace(['\r', '\n'], " ")`: as long as the trimmed label,
   * trimmed itself, and free of line breaks.
   */
  function CleanLabel(text: string): (r: string)
    ensures |r| == |Trim(text)|
    ensures IsTrimmed(r)
    ensures forall i :: 0 <= i < |r| ==> !IsLineBreak(r[i])
    ensures forall i :: 0 <= i < |r| && !IsLineBreak(Trim(text)[i]) ==> r[i] == Trim(text)[i]
    ensures forall i :: 0 <= i < |r| && IsLineBreak(Trim(text)[i]) ==> r[i] == ' '
  {
    SpaceLineBreaks(Trim(text))
  }

  /** Cleaning a cleaned label changes nothing. */
  lemma CleanLabelIdempotent(text: string)
    ensures CleanLabel(CleanLabel(text)) == CleanLabel(text)
  {
    var c := CleanLabel(text);
    TrimOfTrimmed(c);
    assert SpaceLineBreaks(c) == c;
  }

  /** The characters an internal class or resource name is made of. */
  predicate IsIdentifierChar(c: char) {
    IsAsciiAlphanumeric(c) || c == '.' || c == '_'
  }

  /**
   * The rejection heuristic: the cleaned label contains a dot and no space,
   * is not the package's own name, and is made only of identifier characters.
   */
  predicate LooksLikeClassName(clean: string, pkgName: string) {
    && '.' in clean
    && ' ' !in clean
    && clean != pkgName
    && forall i :: 0 <= i < |clean| ==> IsIdentifierChar(clean[i])
  }

  /** Strategy 1: the cleaned APK label, unless it is empty or looks like a class name. */
  function NativeLabel(pkgName: string, apkLabel: Option<string>): (r: Option<string>)
    ensures r.Some? <==> && apkLabel.Some?
                         && |CleanLabel(apkLabel.value)| > 0
                         && !LooksLikeClassName(CleanLabel(apkLabel.value), pkgName)
    ensures r.Some? ==> r.value == CleanLabel(apkLabel.value)
  {
    match apkLabel
    case None => None
    case Some(text) =>
      var clean := CleanLabel(text);
      if |clean| > 0 && !LooksLikeClassName(clean, pkgName) then Some(clean) else None
  }

  /** A label that cleans to the package's own name is always kept. */
  lemma PackageNameAccepted(pkgName: string, text: string)
    requires |pkgName| > 0 && CleanLabel(text) == pkgName
    ensures NativeLabel(pkgName, Some(text)) == Some(pkgName)
  {
  }

  /** A label with a space in it, once cleaned, is always kept. */
  lemma SpacedLabelAccepted(pkgName: string, text: string)
    requires ' ' in CleanLabel(text)
    ensures NativeLabel(pkgName, Some(text)) == Some(CleanLabel(text))
  {
  }

  // ---------------------------------------------------------------------------
  // Strategy 2: the badging output of aapt

  /**
   * The label on one line of badging output: the trimmed line starts with
   * `LabelField`, and the label is what follows it up to the first `quote`.
   */
  function LabelOnLine(line: string, quote: char): (r: Option<string>)
    ensures r.Some? <==> StartsWith(Trim(line), LabelField) && quote in Trim(line)[|LabelField|..]
    ensures r.Some? ==> StartsWith(Trim(line), LabelField + r.value + [quote]) && quote !in r.value
  {
    Between(Trim(line), LabelField, quote)
  }

  /** The label test applied to every line of the output. */
  function LabelTest(quote: char): string -> Option<string> {
    line => LabelOnLine(line, quote)
  }

  /** No line of `lines` before index `i` carries a label. */
  ghost predicate NoLabelBefore(lines: seq<string>, i: int, quote: char)
    requires i <= |lines|
  {
    forall j :: 0 <= j < i ==> LabelOnLine(lines[j], quote).None?
  }

  /** The label of the first line that carries one; later lines are not looked at. */
  function FirstLabel(lines: seq<string>, quote: char): (r: Option<string>)
    ensures r.None? <==> NoLabelBefore(lines, |lines|, quote)
    ensures forall i :: 0 <= i < |lines| && LabelOnLine(lines[i], quote).Some? && NoLabelBefore(lines, i, quote)
                        ==> r == LabelOnLine(lines[i], quote)
  {
    var r := FirstSome(lines, LabelTest(quote));
    assert forall i :: 0 <= i <= |lines| ==> NoLabelBefore(lines, i, quote) == NoneBefore(lines, LabelTest(quote), i);
    r
  }

  /** A label the scan returns is the label of some line. */
  lemma FirstLabelOnSomeLine(lines: seq<string>, quote: char)
    requires FirstLabel(lines, quote).Some?
    ensures exists i :: 0 <= i < |lines| && LabelOnLine(lines[i], quote) == FirstLabel(lines, quote)
  {
    FirstSomeFound(lines, LabelTest(quote));
    var i :| 0 <= i < |lines| && LabelTest(quote)(lines[i]) == FirstSome(lines, LabelTest(quote));
  }

  /** Strategy 2: nothing unless aapt ran and succeeded; then the first label line of its output. */
  function AaptLabel(run: AaptRun, quote: char): (r: Option<string>)
    ensures run.NotStarted? || !run.success ==> r.None?
    ensures run.Exited? && run.success ==> r == FirstLabel(Lines(run.stdout), quote)
  {
    match run
    case NotStarted => None
    case Exited(success, stdout) => if success then FirstLabel(Lines(stdout), quote) else None
  }

  /** The two strategies chained, the second searching for `quote`. */
  function ResolveLabel(quote: char, pkgName: string, apkLabel: Option<string>, run: AaptRun): (r: Option<string>)
    ensures NativeLabel(pkgName, apkLabel).Some? ==> r == NativeLabel(pkgName, apkLabel)
    ensures NativeLabel(pkgName, apkLabel).None? ==> r == AaptLabel(run, quote)
  {
    match NativeLabel(pkgName, apkLabel)
    case Some(text) => Some(text)
    case None => AaptLabel(run, quote)
  }

  /** `Package::get_label` as written: the fallback looks for U+2018 after the label. */
  function GetLabelAsWritten(pkgName: string, apkLabel: Option<string>, run: AaptRun): Option<string> {
    ResolveLabel(AsWrittenQuote, pkgName, apkLabel, run)
  }

  /** `Package::get_label` with the fallback ending the label at the apostrophe aapt prints. */
  function GetLabel(pkgName: string, apkLabel: Option<string>, run: AaptRun): Option<string> {
    ResolveLabel(AsciiQuote, pkgName, apkLabel, run)
  }

  // ---------------------------------------------------------------------------
  // Properties of the chain

  /** A line with the field but no terminator is passed over and the scan goes on. */
  lemma UnterminatedLineSkipped(line: string, rest: seq<string>, quote: char)
    requires StartsWith(Trim(line), LabelField) && quote !in Trim(line)[|LabelField|..]
    ensures FirstLabel([line] + rest, quote) == FirstLabel(rest, quote)
  {
    assert ([line] + rest)[1..] == rest;
  }

  /** A label line whose terminator is `quote` gives back exactly the label it was built from. */
  lemma LabelLineRoundTrip(text: string, quote: char)
    requires !IsWhitespace(quote) && quote !in text
    ensures LabelOnLine(LabelField + text + [quote], quote) == Some(text)
  {
    var t := LabelField + text + [quote];
    TrimOfTrimmed(t);
    BetweenRoundTrip(LabelField, text, quote, []);
    assert t + [] == t;
  }

  /**
   * Every label line aapt prints, `application-label:'<label>'`, is passed
   * over by the code as written when the label has no U+2018 in it.
   */
  lemma AsWrittenMissesAsciiQuote(text: string)
    requires AsWrittenQuote !in text
    ensures LabelOnLine(LabelField + text + [AsciiQuote], AsWrittenQuote).None?
  {
    var t := LabelField + text + [AsciiQuote];
    TrimOfTrimmed(t);
    assert t[|LabelField|..] == text + [AsciiQuote];
  }

  /** The badging output of a successful aapt run whose only line is the label line. */
  function BadgingOutput(text: string): AaptRun {
    Exited(true, LabelField + text + [AsciiQuote] + "\n")
  }

  lemma BadgingLines(text: string)
    requires '\n' !in text
    ensures Lines(BadgingOutput(text).stdout) == [LabelField + text + [AsciiQuote]]
  {
    var line := LabelField + text + [AsciiQuote];
    assert '\n' !in line;
    LinesCons(line, "");
    assert line + "\n" + "" == line + "\n";
  }

  /**
   * When the APK's own label is unusable, the chain as written finds no label
   * in aapt's output, whatever the label is (short of holding U+2018).
   */
  lemma AsWrittenFallbackFindsNothing(pkgName: string, apkLabel: Option<string>, text: string)
    requires NativeLabel(pkgName, apkLabel).None?
    requires AsWrittenQuote !in text && '\n' !in text
    ensures GetLabelAsWritten(pkgName, apkLabel, BadgingOutput(text)) == None
  {
    AsWrittenMissesAsciiQuote(text);
    BadgingLines(text);
  }

  /** When the APK's own label is unusable, the corrected chain returns the label aapt printed. */
  lemma FallbackFindsLabel(pkgName: string, apkLabel: Option<string>, text: string)
    requires NativeLabel(pkgName, apkLabel).None?
    requires AsciiQuote !in text && '\n' !in text
    ensures GetLabel(pkgName, apkLabel, BadgingOutput(text)) == Some(text)
  {
    LabelLineRoundTrip(text, AsciiQuote);
    BadgingLines(text);
  }

  /**
   * `get_label` as written: the APK's label when usable; otherwise a label
   * only from a successful aapt run with a line that holds U+2018 right
   * after the label.
   */
  lemma AsWrittenFallbackNeedsU2018(pkgName: string, apkLabel: Option<string>, run: AaptRun)
    requires GetLabelAsWritten(pkgName, apkLabel, run).Some?
    ensures NativeLabel(pkgName, apkLabel).Some? ==> GetLabelAsWritten(pkgName, apkLabel, run) == NativeLabel(pkgName, apkLabel)
    ensures NativeLabel(pkgName, apkLabel).None? ==>
              && run.Exited? && run.success
              && exists i :: 0 <= i < |Lines(run.stdout)|
                   && StartsWith(Trim(Lines(run.stdout)[i]), LabelField + GetLabelAsWritten(pkgName, apkLabel, run).value + [AsWrittenQuote])
  {
    if NativeLabel(pkgName, apkLabel).None? {
      FirstLabelOnSomeLine(Lines(run.stdout), AsWrittenQuote);
    }
  }

  /** A trimmed label without line breaks is its own cleaned form. */
  lemma CleanOfClean(s: string)
    requires IsTrimmed(s) && forall i :: 0 <= i < |s| ==> !IsLineBreak(s[i])
    ensures CleanLabel(s) == s
  {
    TrimOfTrimmed(s);
  }

  /**
   * A spurious label is rejected and the chain falls through to aapt,
   * whichever terminator the fallback looks for.
   */
  lemma ChromiumActivityRejected(quote: char, run: AaptRun)
    ensures ResolveLabel(quote, "org.chromium.browser", Some("org.chromium.browser.Activity"), run)
            == AaptLabel(run, quote)
  {
    var clean := "org.chromium.browser.Activity";
    assert LooksLikeClassName(clean, "org.chromium.browser");
    CleanOfClean(clean);
  }

  /** A label with a space is returned as it stands, whichever terminator the fallback looks for. */
  lemma ChromeBrowserAccepted(quote: char, pkgName: string, run: AaptRun)
    ensures ResolveLabel(quote, pkgName, Some("Chrome Browser"), run) == Some("Chrome Browser")
  {
    var clean := "Chrome Browser";
    assert ' ' in clean;
    CleanOfClean(clean);
  }
}

=== FILE: options.dfy ===
/** The optional value the analyzer uses wherever Rust has `Option<T>`. */
module Options {

  datatype Option<+T> = None | Some(value: T) {

    /** The wrapped value, or `default` when there is none. */
    function GetOr(default: T): T {
      match this
      case Some(v) => v
      case None => default
    }
  }
}

=== FILE: package_list.dfy ===
/**
 * The text half of `Package::fetch_list`: turning the output of
 * `pm list packages -f` into packages sorted by name. Running `pm`, and
 * the choice of its `-3`/`-s` flag, is outside the model.
 */
module PackageList {
  import opened Options
  import opened Text
  import opened Seqs

  /** An installed package: its identifier and the path of its APK. */
  datatype Package = Package(name: string, path: string)

  const PackagePrefix: string := "package:"

  // ---------------------------------------------------------------------------
  // One line

  /**
   * One line of the listing, `package:<path>=<name>`: the trimmed line must
   * start with the prefix and hold an `=` after it; it is split at the last
   * `=`, and both halves are trimmed.
   */
  function ParseLine(line: string): (r: Option<Package>)
    ensures r.Some? <==> StartsWith(Trim(line), PackagePrefix) && '=' in Trim(line)[|PackagePrefix|..]
    ensures r.Some? ==> '=' !in r.value.name && IsTrimmed(r.value.name) && IsTrimmed(r.value.path)
    ensures r.Some? ==> exists path, name ::
              && Trim(line)[|PackagePrefix|..] == path + "=" + name
              && '=' !in name
              && r.value == Package(Trim(name), Trim(path))
  {
    match StripPrefix(Trim(line), PackagePrefix)
    case None => None
    case Some(rest) =>
      assert rest == Trim(line)[|PackagePrefix|..];
      match SplitLast(rest, '=')
      case None => None
      case Some((path, name)) =>
        TrimKeepsAbsent(name, '=');
        assert rest == path + "=" + name;
        Some(Package(Trim(name), Trim(path)))
  }

  /** A line whose trimmed form is `package:<path>=<name>`, with no `=` in the name, gives the trims of the two halves. */
  lemma ParseLineHalves(line: string, path: string, name: string)
    requires Trim(line) == PackagePrefix + (path + "=" + name) && '=' !in name
    ensures ParseLine(line) == Some(Package(Trim(name), Trim(path)))
  {
    var rest := path + "=" + name;
    assert StartsWith(Trim(line), PackagePrefix);
    assert StripPrefix(Trim(line), PackagePrefix).value == rest;
    assert rest == path + ['='] + name;
    SplitLastRoundTrip(path, '=', name);
  }

  /** A line whose trimmed form is `package:<path>=<name>` gives back that path and name. */
  lemma ParseTrimmedLine(line: string, path: string, name: string)
    requires Trim(line) == PackagePrefix + (path + "=" + name)
    requires IsTrimmed(path) && IsTrimmed(name) && '=' !in name
    ensures ParseLine(line) == Some(Package(name, path))
  {
    ParseLineHalves(line, path, name);
    TrimOfTrimmed(path);
    TrimOfTrimmed(name);
  }

  /** `package:<path>=<name>` is trimmed when the name is: it ends in the name or in `=`. */
  lemma ListingTrimmed(path: string, name: string)
    requires IsTrimmed(name)
    ensures IsTrimmed(PackagePrefix + (path + "=" + name))
  {
    var rest := path + "=" + name;
    assert rest[|rest| - 1] == (if |name| > 0 then name[|name| - 1] else '=');
  }

  lemma ListingRegrouped(pad: string, path: string, name: string, pad': string)
    ensures pad + PackagePrefix + path + "=" + name + pad' == pad + (PackagePrefix + (path + "=" + name)) + pad'
  {
    var p1 := pad + PackagePrefix + path;
    assert p1 == pad + (PackagePrefix + path);
    assert p1 + "=" == pad + (PackagePrefix + path + "=");
    assert PackagePrefix + path + "=" == PackagePrefix + (path + "=");
    assert p1 + "=" + name == pad + (PackagePrefix + (path + "=") + name);
    assert PackagePrefix + (path + "=") + name == PackagePrefix + (path + "=" + name);
  }

  /**
   * A line built from a trimmed path (which may hold `=`) and a trimmed name
   * without `=`, padded with whitespace, parses back to that package.
   */
  lemma ParseLineRoundTrip(pad: string, path: string, name: string, pad': string)
    requires AllWhitespace(pad) && AllWhitespace(pad')
    requires IsTrimmed(path) && IsTrimmed(name) && '=' !in name
    ensures ParseLine(pad + PackagePrefix + path + "=" + name + pad') == Some(Package(name, path))
  {
    var t := PackagePrefix + (path + "=" + name);
    ListingTrimmed(path, name);
    TrimPadded(pad, t, pad');
    ListingRegrouped(pad, path, name, pad');
    ParseTrimmedLine(pad + t + pad', path, name);
  }

  /** Every line that parses, in line order. */
  function ParseLines(lines: seq<string>): (r: seq<Package>)
    ensures |r| <= |lines|
  {
    FilterMap(lines, ParseLine)
  }

  /** Some line of `lines` parses to `p`. */
  ghost predicate Listed(lines: seq<string>, p: Package) {
    exists i :: 0 <= i < |lines| && ParseLine(lines[i]) == Some(p)
  }

  /** The parsed packages are exactly the packages some line parses to. */
  lemma ParseLinesMembers(lines: seq<string>, p: Package)
    ensures p in ParseLines(lines) <==> Listed(lines, p)
  {
    FilterMapMembers(lines, ParseLine, p);
  }

  // ---------------------------------------------------------------------------
  // Stable sort by name

  /** Names never decrease along `ps` (`String`'s order). */
  ghost predicate SortedByName(ps: seq<Package>) {
    forall i, j :: 0 <= i < j < |ps| ==> LessEq(ps[i].name, ps[j].name)
  }

  /** The packages of `ps` called `n`, in order. */
  function WithName(ps: seq<Package>, n: string): seq<Package>
    decreases |ps|
  {
    if |ps| == 0 then []
    else
      var last := ps[|ps| - 1];
      WithName(ps[..|ps| - 1], n) + (if last.name == n then [last] else [])
  }

  lemma {:induction false} WithNameAppend(s: seq<Package>, t: seq<Package>, n: string)
    ensures WithName(s + t, n) == WithName(s, n) + WithName(t, n)
    decreases |t|
  {
    if |t| > 0 {
      var t' := t[..|t| - 1];
      assert (s + t)[..|s + t| - 1] == s + t';
      WithNameAppend(s, t', n);
    } else {
      assert s + t == s;
    }
  }

  lemma WithNameOne(p: Package, n: string)
    ensures WithName([p], n) == if p.name == n then [p] else []
  {
    assert [p][..0] == [];
  }

  /**
   * Where `Insert` puts `p`: after the last package named no later than `p`,
   * so that every package after it is named strictly later.
   */
  function InsertionPoint(p: Package, s: seq<Package>): (k: nat)
    ensures k <= |s|
    ensures forall j :: k <= j < |s| ==> !LessEq(s[j].name, p.name)
    ensures k > 0 ==> LessEq(s[k - 1].name, p.name)
    decreases |s|
  {
    if |s| == 0 then 0
    else if LessEq(s[|s| - 1].name, p.name) then |s|
    else InsertionPoint(p, s[..|s| - 1])
  }

  lemma SortedSplit(s: seq<Package>, k: nat, p: Package)
    requires SortedByName(s) && k <= |s|
    requires forall j :: k <= j < |s| ==> !LessEq(s[j].name, p.name)
    requires k > 0 ==> LessEq(s[k - 1].name, p.name)
    ensures SortedByName(s[..k] + [p] + s[k..])
  {
    var r := s[..k] + [p] + s[k..];
    forall i | 0 <= i < k
      ensures LessEq(s[i].name, p.name)
    {
      if i < k - 1 {
        LessEqTransitive(s[i].name, s[k - 1].name, p.name);
      }
    }
    forall j | k <= j < |s|
      ensures LessEq(p.name, s[j].name)
    {
      LessEqTotal(s[j].name, p.name);
    }
    forall i, j | 0 <= i < j < |r|
      ensures LessEq(r[i].name, r[j].name)
    {
      if i < k && j > k {
        LessEqTransitive(s[i].name, p.name, s[j - 1].name);
      }
    }
  }

  /** Puts `p` after every package whose name is not greater than its own. */
  function Insert(p: Package, s: seq<Package>): (r: seq<Package>)
    requires SortedByName(s)
    ensures SortedByName(r)
    ensures multiset(r) == multiset(s) + multiset{p}
  {
    var k := InsertionPoint(p, s);
    SortedSplit(s, k, p);
    SplitCount(s, k, p);
    s[..k] + [p] + s[k..]
  }

  lemma SplitCount(s: seq<Package>, k: nat, p: Package)
    requires k <= |s|
    ensures multiset(s[..k] + [p] + s[k..]) == multiset(s) + multiset{p}
  {
    assert s == s[..k] + s[k..];
  }

  lemma {:induction false} WithNameNone(s: seq<Package>, n: string)
    requires forall j :: 0 <= j < |s| ==> s[j].name != n
    ensures WithName(s, n) == []
    decreases |s|
  {
    if |s| > 0 {
      var init := s[..|s| - 1];
      var last := s[|s| - 1];
      assert s == init + [last];
      WithNameNone(init, n);
      WithNameOne(last, n);
      WithNameAppend(init, [last], n);
    }
  }

  /** `Insert` splits its input at the insertion point. */
  lemma InsertShape(p: Package, s: seq<Package>)
    requires SortedByName(s)
    ensures Insert(p, s) == s[..InsertionPoint(p, s)] + [p] + s[InsertionPoint(p, s)..]
  {
  }

  /** Putting `p` in front of packages named differently adds `p` to its own name's packages only. */
  lemma WithNameInserted(a: seq<Package>, p: Package, b: seq<Package>, n: string)
    requires forall j :: 0 <= j < |b| ==> b[j].name != p.name
    ensures WithName(a + [p] + b, n) == WithName(a + b, n) + (if p.name == n then [p] else [])
  {
    WithNameAppend(a + [p], b, n);
    WithNameAppend(a, [p], n);
    WithNameAppend(a, b, n);
    WithNameOne(p, n);
    if p.name == n {
      WithNameNone(b, n);
    }
  }

  /** Every package after the insertion point is named differently from `p`. */
  lemma AfterPointOtherNames(p: Package, s: seq<Package>)
    ensures forall j :: 0 <= j < |s| - InsertionPoint(p, s) ==> s[InsertionPoint(p, s)..][j].name != p.name
  {
    LessEqReflexive(p.name);
  }

  /** Inserting `p` adds it after every package of the same name and changes nothing for other names. */
  lemma InsertWithName(p: Package, s: seq<Package>, n: string)
    requires SortedByName(s)
    ensures WithName(Insert(p, s), n) == WithName(s, n) + (if p.name == n then [p] else [])
  {
    var k := InsertionPoint(p, s);
    InsertShape(p, s);
    AfterPointOtherNames(p, s);
    WithNameInserted(s[..k], p, s[k..], n);
    assert s[..k] + s[k..] == s;
  }

  /** `list.sort_by(|a, b| a.name.cmp(&b.name))`: insertion sort, which is stable as `sort_by` is. */
  function SortByName(ps: seq<Package>): (r: seq<Package>)
    ensures SortedByName(r)
    ensures multiset(r) == multiset(ps)
    decreases |ps|
  {
    if |ps| == 0 then []
    else
      var init := ps[..|ps| - 1];
      assert ps == init + [ps[|ps| - 1]];
      Insert(ps[|ps| - 1], SortByName(init))
  }

  /** Packages of the same name keep their relative order: the sort is stable. */
  lemma {:induction false} SortByNameStable(ps: seq<Package>, n: string)
    ensures WithName(SortByName(ps), n) == WithName(ps, n)
    decreases |ps|
  {
    if |ps| > 0 {
      var init := ps[..|ps| - 1];
      var last := ps[|ps| - 1];
      assert ps == init + [last];
      SortByNameStable(init, n);
      InsertWithName(last, SortByName(init), n);
      WithNameOne(last, n);
      WithNameAppend(init, [last], n);
    }
  }

  // ---------------------------------------------------------------------------
  // The whole listing

  /** `Package::fetch_list` after `pm` has run: parse every line, then sort by name. */
  function FetchList(raw: string): (r: seq<Package>)
    ensures SortedByName(r)
    ensures |r| <= |Lines(raw)|
    ensures multiset(r) == multiset(ParseLines(Lines(raw)))
  {
    var parsed := ParseLines(Lines(raw));
    var r := SortByName(parsed);
    assert |r| == |multiset(r)| == |multiset(parsed)| == |parsed|;
    r
  }

  /** The listing holds exactly the packages some line of the text parses to. */
  lemma FetchListMembers(raw: string, p: Package)
    ensures p in FetchList(raw) <==> Listed(Lines(raw), p)
  {
    var parsed := ParseLines(Lines(raw));
    ParseLinesMembers(Lines(raw), p);
    assert p in FetchList(raw) <==> p in multiset(FetchList(raw));
    assert p in parsed <==> p in multiset(parsed);
  }
}

=== FILE: selection.dfy ===
/**
 * The body of `main` between fetching its inputs and rendering: the name
 * filter, the optional label lookup, the status filter, and the tallies the
 * summary prints. Printing (table, blocks or JSON) is outside the model;
 * the rows that pass the filters, in order, are its result. In table mode
 * the code prints nothing for a row without records.
 */
module Selection {
  import opened Options
  import opened Text
  import opened Seqs
  import opened DumpParser
  import opened PackageList
  import opened Labels

  /** The command-line switches that reach this part of `main`. */
  datatype Args = Args(filter: Option<string>, status: Option<string>, verbose: bool, json: bool)

  /** What the device answers about the APK at a path: its declared label, and what `aapt` did with it. */
  datatype Device = Device(apkLabel: string -> Option<string>, aapt: string -> AaptRun)

  /** One package that passes the filters: with its label (when looked up) and its records (when the dump has any). */
  datatype Entry = Entry(pkg: Package, text: Option<string>, infos: Option<seq<DexOptInfo>>)

  /** Everything the loop accumulates: the kept rows, `stats` and `total_displayed`. */
  datatype Summary = Summary(entries: seq<Entry>, stats: map<string, nat>, totalDisplayed: nat)

  // ---------------------------------------------------------------------------
  // The name filter

  predicate NameMatches(filter: Option<string>, p: Package) {
    filter.None? || Contains(p.name, filter.value)
  }

  /** The closure `main` filters with. */
  function NameTest(filter: Option<string>): Package -> bool {
    (p: Package) => NameMatches(filter, p)
  }

  /** `--filter`: the packages whose name contains the filter, all of them when there is none. */
  function NameFilter(pkgs: seq<Package>, filter: Option<string>): (r: seq<Package>)
    ensures |r| <= |pkgs|
    ensures forall i :: 0 <= i < |r| ==> r[i] in pkgs && NameMatches(filter, r[i])
    ensures forall i :: 0 <= i < |pkgs| && NameMatches(filter, pkgs[i]) ==> pkgs[i] in r
  {
    Filter(pkgs, NameTest(filter))
  }

  /** Without a filter nothing is dropped. */
  lemma {:induction false} NoFilterKeepsAll(pkgs: seq<Package>)
    ensures NameFilter(pkgs, None) == pkgs
    decreases |pkgs|
  {
    if |pkgs| > 0 {
      var init := pkgs[..|pkgs| - 1];
      NoFilterKeepsAll(init);
      assert pkgs == init + [pkgs[|pkgs| - 1]];
    }
  }

  /**
   * The filter works package by package and keeps the listing's order and
   * repetitions: filtering a concatenation filters each part.
   */
  lemma NameFilterAppend(a: seq<Package>, b: seq<Package>, filter: Option<string>)
    ensures NameFilter(a + b, filter) == NameFilter(a, filter) + NameFilter(b, filter)
  {
    FilterAppend(a, b, NameTest(filter));
  }

  /** A single package is kept exactly when its name passes. */
  lemma NameFilterOne(p: Package, filter: Option<string>)
    ensures NameFilter([p], filter) == if NameMatches(filter, p) then [p] else []
  {
    assert [p][..0] == [];
  }

  /** Filtering a sorted listing leaves it sorted. */
  lemma NameFilterKeepsSorted(pkgs: seq<Package>, filter: Option<string>)
    requires SortedByName(pkgs)
    ensures SortedByName(NameFilter(pkgs, filter))
  {
    var le := (a: Package, b: Package) => LessEq(a.name, b.name);
    assert SortedBy(pkgs, le);
    FilterKeepsSorted(pkgs, NameTest(filter), le);
    var r := NameFilter(pkgs, filter);
    assert SortedBy(r, le);
  }

  // ---------------------------------------------------------------------------
  // Labels

  /** `Package::get_label` as written for one listed package, asking the device about its path. */
  function LabelOf(device: Device, p: Package): Option<string> {
    GetLabelAsWritten(p.name, device.apkLabel(p.path), device.aapt(p.path))
  }

  /** The lookup `display_data` runs for every package. */
  function Lookup(device: Device): Package -> Option<string> {
    (p: Package) => LabelOf(device, p)
  }

  /**
   * `display_data`: each package paired with its label when `--verbose` or
   * `--json` is given, and with nothing otherwise. The parallel lookup
   * collects in order, so it is a sequential map here.
   */
  function Display(pkgs: seq<Package>, wantLabels: bool, lookup: Package -> Option<string>): (r: seq<(Package, Option<string>)>)
    ensures |r| == |pkgs|
    ensures forall i :: 0 <= i < |r| ==> r[i].0 == pkgs[i]
    ensures forall i :: 0 <= i < |r| ==> r[i].1 == (if wantLabels then lookup(pkgs[i]) else None)
    decreases |pkgs|
  {
    if |pkgs| == 0 then []
    else
      var init := pkgs[..|pkgs| - 1];
      var p := pkgs[|pkgs| - 1];
      var r := Display(init, wantLabels, lookup);
      assert forall i :: 0 <= i < |init| ==> init[i] == pkgs[i];
      r + [(p, if wantLabels then lookup(p) else None)]
  }

  // ---------------------------------------------------------------------------
  // The status filter and the decision for one package

  /** `infos.iter().any(|i| i.status.contains(f))`. */
  function AnyStatusContains(infos: seq<DexOptInfo>, f: string): (r: bool)
    ensures r <==> exists i :: 0 <= i < |infos| && Contains(infos[i].status, f)
    decreases |infos|
  {
    if |infos| == 0 then false
    else
      var init := infos[..|infos| - 1];
      var b := AnyStatusContains(init, f);
      assert forall i :: 0 <= i < |init| ==> init[i] == infos[i];
      b || Contains(infos[|infos| - 1].status, f)
  }

  /** What the loop does with one package: skip it, or keep it, counting it or not. */
  datatype Verdict = Skip | Emit(counted: bool)

  /**
   * With records: skipped when a status filter is given and no record's
   * status contains it, otherwise kept and counted. Without records:
   * skipped when a status filter is given, otherwise kept uncounted.
   */
  function Decide(infos: Option<seq<DexOptInfo>>, status: Option<string>): (r: Verdict)
    ensures r.Emit? <==> status.None? || (infos.Some? && AnyStatusContains(infos.value, status.value))
    ensures r.Emit? ==> (r.counted <==> infos.Some?)
  {
    match infos
    case Some(list) =>
      if status.Some? && !AnyStatusContains(list, status.value) then Skip else Emit(true)
    case None =>
      if status.Some? then Skip else Emit(false)
  }

  // ---------------------------------------------------------------------------
  // Per-status counts

  /** The count a `BTreeMap` entry holds, zero when absent. */
  function Get(m: map<string, nat>, s: string): nat {
    if s in m then m[s] else 0
  }

  /** How many records have status `s`. */
  function Occurrences(s: string, infos: seq<DexOptInfo>): (r: nat)
    ensures r <= |infos|
    decreases |infos|
  {
    if |infos| == 0 then 0
    else Occurrences(s, infos[..|infos| - 1]) + (if infos[|infos| - 1].status == s then 1 else 0)
  }

  lemma {:induction false} OccurrencesAppend(s: string, a: seq<DexOptInfo>, b: seq<DexOptInfo>)
    ensures Occurrences(s, a + b) == Occurrences(s, a) + Occurrences(s, b)
    decreases |b|
  {
    if |b| == 0 {
      assert a + b == a;
    } else {
      var b' := b[..|b| - 1];
      assert (a + b)[..|a + b| - 1] == a + b';
      OccurrencesAppend(s, a, b');
    }
  }

  /** `*stats.entry(status).or_insert(0) += 1` for one record. */
  function Bump(m: map<string, nat>, s: string): (r: map<string, nat>)
    ensures Get(r, s) == Get(m, s) + 1
    ensures forall t :: t != s ==> Get(r, t) == Get(m, t)
    ensures forall t :: t in r <==> t in m || t == s
  {
    m[s := Get(m, s) + 1]
  }

  /**
   * The inner loop over one package's records: every count grows by the
   * number of records with that status, and a status gains an entry exactly
   * when some record has it.
   */
  function Tally(m: map<string, nat>, infos: seq<DexOptInfo>): (r: map<string, nat>)
    ensures forall s :: Get(r, s) == Get(m, s) + Occurrences(s, infos)
    ensures forall s :: s in r <==> s in m || Occurrences(s, infos) > 0
    decreases |infos|
  {
    if |infos| == 0 then m
    else Bump(Tally(m, infos[..|infos| - 1]), infos[|infos| - 1].status)
  }

  // ---------------------------------------------------------------------------
  // The loop

  const Start: Summary := Summary([], map[], 0)

  /** One iteration of `for (pkg, app_label) in display_data`. */
  function Visit(sm: Summary, index: Index, status: Option<string>, d: (Package, Option<string>)): (r: Summary)
    ensures |r.entries| <= |sm.entries| + 1
    ensures r.totalDisplayed <= sm.totalDisplayed + 1
    ensures sm.totalDisplayed <= |sm.entries| ==> r.totalDisplayed <= |r.entries|
  {
    var infos := GetInfo(index, d.0.name);
    match Decide(infos, status)
    case Skip => sm
    case Emit(counted) =>
      var entries := sm.entries + [Entry(d.0, d.1, infos)];
      if counted then Summary(entries, Tally(sm.stats, infos.value), sm.totalDisplayed + 1)
      else sm.(entries := entries)
  }

  /** The loop over all of `display_data`, from an empty summary. */
  function Run(index: Index, status: Option<string>, display: seq<(Package, Option<string>)>): (r: Summary)
    ensures r.totalDisplayed <= |r.entries| <= |display|
    decreases |display|
  {
    if |display| == 0 then Start
    else Visit(Run(index, status, display[..|display| - 1]), index, status, display[|display| - 1])
  }

  // ---------------------------------------------------------------------------
  // What the loop computes, stated without the loop

  /** The row a display item becomes, if the filters let it through. */
  function Emitted(index: Index, status: Option<string>, d: (Package, Option<string>)): Option<Entry> {
    var infos := GetInfo(index, d.0.name);
    if Decide(infos, status).Emit? then Some(Entry(d.0, d.1, infos)) else None
  }

  /** The item is kept and has records: it counts towards `total_displayed`. */
  predicate Counted(index: Index, status: Option<string>, d: (Package, Option<string>)) {
    Emitted(index, status, d).Some? && d.0.name in index
  }

  function EmittedAll(index: Index, status: Option<string>, display: seq<(Package, Option<string>)>): seq<Entry> {
    FilterMap(display, d => Emitted(index, status, d))
  }

  function CountedAll(index: Index, status: Option<string>, display: seq<(Package, Option<string>)>): seq<(Package, Option<string>)> {
    Filter(display, d => Counted(index, status, d))
  }

  /** The records of every counted item, one package after another. */
  function CountedRecords(index: Index, status: Option<string>, display: seq<(Package, Option<string>)>): (r: seq<DexOptInfo>)
    decreases |display|
  {
    if |display| == 0 then []
    else
      var d := display[|display| - 1];
      CountedRecords(index, status, display[..|display| - 1]) + (if Counted(index, status, d) then index[d.0.name] else [])
  }

  lemma {:induction false} RunEntries(index: Index, status: Option<string>, display: seq<(Package, Option<string>)>)
    ensures Run(index, status, display).entries == EmittedAll(index, status, display)
    decreases |display|
  {
    if |display| > 0 {
      RunEntries(index, status, display[..|display| - 1]);
    }
  }

  lemma {:induction false} RunTotal(index: Index, status: Option<string>, display: seq<(Package, Option<string>)>)
    ensures Run(index, status, display).totalDisplayed == |CountedAll(index, status, display)|
    decreases |display|
  {
    if |display| > 0 {
      var init := display[..|display| - 1];
      var d := display[|display| - 1];
      RunTotal(index, status, init);
      assert display == init + [d];
      FilterAppend(init, [d], d => Counted(index, status, d));
    }
  }

  lemma {:induction false} RunStats(index: Index, status: Option<string>, display: seq<(Package, Option<string>)>)
    ensures forall s :: Get(Run(index, status, display).stats, s) == Occurrences(s, CountedRecords(index, status, display))
    ensures forall s :: s in Run(index, status, display).stats <==> Occurrences(s, CountedRecords(index, status, display)) > 0
    decreases |display|
  {
    if |display| > 0 {
      var init := display[..|display| - 1];
      var d := display[|display| - 1];
      RunStats(index, status, init);
      var recs := CountedRecords(index, status, init);
      var extra := if Counted(index, status, d) then index[d.0.name] else [];
      forall s
        ensures Occurrences(s, CountedRecords(index, status, display)) == Occurrences(s, recs) + Occurrences(s, extra)
      {
        OccurrencesAppend(s, recs, extra);
      }
    }
  }

  /**
   * The loop keeps exactly the items the filters let through, in order;
   * `total_displayed` is the number of those with records; and `stats`
   * holds, for each status, how many records of those packages have it,
   * with an entry for exactly the statuses that occur.
   */
  lemma RunIsReference(index: Index, status: Option<string>, display: seq<(Package, Option<string>)>)
    ensures Run(index, status, display).entries == EmittedAll(index, status, display)
    ensures Run(index, status, display).totalDisplayed == |CountedAll(index, status, display)|
    ensures forall s :: Get(Run(index, status, display).stats, s) == Occurrences(s, CountedRecords(index, status, display))
    ensures forall s :: s in Run(index, status, display).stats <==> Occurrences(s, CountedRecords(index, status, display)) > 0
  {
    RunEntries(index, status, display);
    RunTotal(index, status, display);
    RunStats(index, status, display);
  }

  // ---------------------------------------------------------------------------
  // The whole of `main` from its inputs

  /**
   * `pm`'s listing and `dumpsys`'s dump in, the rows that pass the filters
   * and the tallies `main` prints.
   */
  function Analyze(args: Args, listing: string, dump: string, device: Device): (r: Summary)
    ensures r.totalDisplayed <= |r.entries| <= |Lines(listing)|
  {
    var pkgs := NameFilter(FetchList(listing), args.filter);
    Run(Parse(dump), args.status, Display(pkgs, args.verbose || args.json, Lookup(device)))
  }

  /** Every row the loop keeps comes from an item the filters let through, with that item's records. */
  lemma RunEntry(index: Index, status: Option<string>, display: seq<(Package, Option<string>)>, e: Entry)
    requires e in Run(index, status, display).entries
    ensures exists i :: 0 <= i < |display| && display[i].0 == e.pkg && display[i].1 == e.text
    ensures e.infos == GetInfo(index, e.pkg.name) && Decide(e.infos, status).Emit?
  {
    RunIsReference(index, status, display);
    FilterMapMembers(display, d => Emitted(index, status, d), e);
  }

  /**
   * Every kept row is a listed package whose name passes the filter,
   * paired with its label exactly when one was asked for and with the
   * dump's records for it; under a status filter it has a matching record.
   */
  lemma AnalyzeEntries(args: Args, listing: string, dump: string, device: Device, e: Entry)
    requires e in Analyze(args, listing, dump, device).entries
    ensures Listed(Lines(listing), e.pkg) && NameMatches(args.filter, e.pkg)
    ensures e.text == (if args.verbose || args.json then LabelOf(device, e.pkg) else None)
    ensures e.infos == GetInfo(Parse(dump), e.pkg.name)
    ensures args.status.Some? ==> e.infos.Some? && AnyStatusContains(e.infos.value, args.status.value)
  {
    var pkgs := NameFilter(FetchList(listing), args.filter);
    var display := Display(pkgs, args.verbose || args.json, Lookup(device));
    RunEntry(Parse(dump), args.status, display, e);
    var i :| 0 <= i < |display| && display[i].0 == e.pkg && display[i].1 == e.text;
    assert e.pkg == pkgs[i];
    assert e.pkg in FetchList(listing);
    FetchListMembers(listing, e.pkg);
  }

  /**
   * Conversely, every listed package whose name passes the filter and that
   * the status filter lets through is kept, with its label when one
   * was asked for and with its dump records.
   */
  lemma AnalyzeKeeps(args: Args, listing: string, dump: string, device: Device, p: Package)
    requires Listed(Lines(listing), p) && NameMatches(args.filter, p)
    requires Decide(GetInfo(Parse(dump), p.name), args.status).Emit?
    ensures Entry(p, if args.verbose || args.json then LabelOf(device, p) else None, GetInfo(Parse(dump), p.name))
            in Analyze(args, listing, dump, device).entries
  {
    var all := FetchList(listing);
    FetchListMembers(listing, p);
    var k :| 0 <= k < |all| && all[k] == p;
    var pkgs := NameFilter(all, args.filter);
    assert p in pkgs;
    DisplayKeeps(Parse(dump), args.status, pkgs, args.verbose || args.json, Lookup(device), p);
  }

  /** A package that reaches `display_data` and passes the status filter becomes a row. */
  lemma DisplayKeeps(index: Index, status: Option<string>, pkgs: seq<Package>, wantLabels: bool,
                     lookup: Package -> Option<string>, p: Package)
    requires p in pkgs && Decide(GetInfo(index, p.name), status).Emit?
    ensures Entry(p, if wantLabels then lookup(p) else None, GetInfo(index, p.name))
            in Run(index, status, Display(pkgs, wantLabels, lookup)).entries
  {
    var i :| 0 <= i < |pkgs| && pkgs[i] == p;
    var display := Display(pkgs, wantLabels, lookup);
    assert Emitted(index, status, display[i]) == Some(Entry(p, if wantLabels then lookup(p) else None, GetInfo(index, p.name)));
    RunKeeps(index, status, display, i);
  }

  /** Every display item the filters let through becomes a row. */
  lemma RunKeeps(index: Index, status: Option<string>, display: seq<(Package, Option<string>)>, i: nat)
    requires i < |display| && Emitted(index, status, display[i]).Some?
    ensures Emitted(index, status, display[i]).value in Run(index, status, display).entries
  {
    RunEntries(index, status, display);
    FilterMapMembers(display, d => Emitted(index, status, d), Emitted(index, status, display[i]).value);
  }

  // ---------------------------------------------------------------------------
  // The cases the loop's comments single out

  /** Under a status filter, a package with one matching record adds all its records to the counts. */
  lemma StatusFilterCountsEveryRecord(index: Index, f: string, d: (Package, Option<string>))
    requires d.0.name in index && AnyStatusContains(index[d.0.name], f)
    ensures Run(index, Some(f), [d]) == Summary([Entry(d.0, d.1, Some(index[d.0.name]))], Tally(map[], index[d.0.name]), 1)
  {
    assert [d][..0] == [];
  }

  /** Without a status filter, a package the dump knows nothing of is kept but not counted. */
  lemma UnknownPackageShownUncounted(index: Index, d: (Package, Option<string>))
    requires d.0.name !in index
    ensures Run(index, None, [d]) == Summary([Entry(d.0, d.1, None)], map[], 0)
  {
    assert [d][..0] == [];
  }

  /** With a status filter, a package the dump knows nothing of is skipped. */
  lemma UnknownPackageSkipped(index: Index, f: string, d: (Package, Option<string>))
    requires d.0.name !in index
    ensures Run(index, Some(f), [d]) == Start
  {
    assert [d][..0] == [];
  }
}

=== FILE: selection_sample.dfy ===
/** The loop of `main` run over the parser test's dump, with and without a status filter. */
module SelectionSample {
  import opened Options
  import opened Text
  import opened DumpParser
  import opened DumpSample
  import opened PackageList
  import opened Selection

  const App: string := "com.example.app"
  const Service: string := "com.system.service"

  lemma SpeedProfileMatches()
    ensures Contains("speed-profile", "speed")
  {
    ContainsInfix("", "speed", "-profile");
    assert "" + "speed" + "-profile" == "speed-profile";
  }

  lemma VerifyDoesNotMatch()
    ensures !Contains("verify", "speed")
  {
    ContainsIff("verify", "speed");
    forall i | 0 <= i
      ensures !OccursAt("verify", "speed", i)
    {
      if i + 5 <= 6 {
        assert "verify"[i..i + 5][0] == "verify"[i] != 's';
      }
    }
  }

  /** The packages of the test, in listing order, with whatever labels the lookup gave. */
  function SampleDisplay(appPath: string, servicePath: string, appText: Option<string>, serviceText: Option<string>)
    : seq<(Package, Option<string>)>
  {
    [(Package(App, appPath), appText), (Package(Service, servicePath), serviceText)]
  }

  /** A two-item loop is two visits from the empty summary. */
  lemma RunTwo(index: Index, status: Option<string>, d1: (Package, Option<string>), d2: (Package, Option<string>))
    ensures Run(index, status, [d1, d2]) == Visit(Visit(Start, index, status, d1), index, status, d2)
  {
    assert [d1][..0] == [];
    assert Run(index, status, [d1]) == Visit(Start, index, status, d1);
    assert [d1, d2][..1] == [d1];
  }

  lemma SampleIndex()
    ensures App in Parse(SampleDump) && Parse(SampleDump)[App] == [DexOptInfo(AppLine, "speed-profile")]
    ensures Service in Parse(SampleDump) && Parse(SampleDump)[Service] == [DexOptInfo(ServiceLine, "verify")]
  {
    SampleParse();
  }

  /** Without a status filter a package with records is kept and counted. */
  lemma CountedVisit(sm: Summary, index: Index, d: (Package, Option<string>))
    requires d.0.name in index
    ensures Visit(sm, index, None, d)
            == Summary(sm.entries + [Entry(d.0, d.1, Some(index[d.0.name]))], Tally(sm.stats, index[d.0.name]), sm.totalDisplayed + 1)
  {
  }

  lemma SampleOccurrences()
    ensures Occurrences("speed-profile", [DexOptInfo(AppLine, "speed-profile")]) == 1
    ensures Occurrences("verify", [DexOptInfo(AppLine, "speed-profile")]) == 0
    ensures Occurrences("speed-profile", [DexOptInfo(ServiceLine, "verify")]) == 0
    ensures Occurrences("verify", [DexOptInfo(ServiceLine, "verify")]) == 1
  {
    assert [DexOptInfo(AppLine, "speed-profile")][..0] == [];
    assert [DexOptInfo(ServiceLine, "verify")][..0] == [];
  }

  lemma RunUnfilteredOn(index: Index, d1: (Package, Option<string>), d2: (Package, Option<string>))
    requires d1.0.name in index && index[d1.0.name] == [DexOptInfo(AppLine, "speed-profile")]
    requires d2.0.name in index && index[d2.0.name] == [DexOptInfo(ServiceLine, "verify")]
    ensures var r := Run(index, None, [d1, d2]);
            r.totalDisplayed == 2 && Get(r.stats, "speed-profile") == 1 && Get(r.stats, "verify") == 1
  {
    RunTwo(index, None, d1, d2);
    var s1 := Visit(Start, index, None, d1);
    CountedVisit(Start, index, d1);
    CountedVisit(s1, index, d2);
    SampleOccurrences();
  }

  /** With no status filter both packages are kept and counted, one record of each status. */
  lemma SampleRunUnfiltered(appPath: string, servicePath: string, appText: Option<string>, serviceText: Option<string>)
    ensures var r := Run(Parse(SampleDump), None, SampleDisplay(appPath, servicePath, appText, serviceText));
            r.totalDisplayed == 2 && Get(r.stats, "speed-profile") == 1 && Get(r.stats, "verify") == 1
  {
    SampleIndex();
    RunUnfilteredOn(Parse(SampleDump), (Package(App, appPath), appText), (Package(Service, servicePath), serviceText));
  }

  /** With the status filter `speed` only the first package is kept and counted. */
  lemma SampleRunSpeed(appPath: string, servicePath: string, appText: Option<string>, serviceText: Option<string>)
    ensures var r := Run(Parse(SampleDump), Some("speed"), SampleDisplay(appPath, servicePath, appText, serviceText));
            && r.entries == [Entry(Package(App, appPath), appText, Some([DexOptInfo(AppLine, "speed-profile")]))]
            && r.totalDisplayed == 1 && Get(r.stats, "speed-profile") == 1 && "verify" !in r.stats
  {
    var index := Parse(SampleDump);
    SampleIndex();
    var d1, d2 := (Package(App, appPath), appText), (Package(Service, servicePath), serviceText);
    RunTwo(index, Some("speed"), d1, d2);
    var appInfos := [DexOptInfo(AppLine, "speed-profile")];
    var serviceInfos := [DexOptInfo(ServiceLine, "verify")];
    SpeedProfileMatches();
    VerifyDoesNotMatch();
    assert AnyStatusContains(appInfos, "speed");
    assert !AnyStatusContains(serviceInfos, "speed");
    var s1 := Visit(Start, index, Some("speed"), d1);
    assert s1.stats == Tally(map[], appInfos) && s1.totalDisplayed == 1;
    assert Occurrences("speed-profile", appInfos) == 1 && Occurrences("verify", appInfos) == 0;
    assert Visit(s1, index, Some("speed"), d2) == s1;
  }
}

=== FILE: seqs.dfy ===
/** Order-preserving selection from a sequence, the shape of Rust's `iter().filter(..).collect()`. */
module Seqs {
  import opened Options

  /** The elements of `s` that satisfy `keep`, in their original order. */
  function Filter<T>(s: seq<T>, keep: T -> bool): (r: seq<T>)
    ensures |r| <= |s|
    ensures forall i :: 0 <= i < |r| ==> r[i] in s && keep(r[i])
    ensures forall i :: 0 <= i < |s| && keep(s[i]) ==> s[i] in r
    decreases |s|
  {
    if |s| == 0 then []
    else
      var init := Filter(s[..|s| - 1], keep);
      assert s == s[..|s| - 1] + [s[|s| - 1]];
      init + (if keep(s[|s| - 1]) then [s[|s| - 1]] else [])
  }

  /** `iter().map(f).collect()`: `f` of every element, in order. */
  function MapSeq<T, U>(s: seq<T>, f: T -> U): (r: seq<U>)
    ensures |r| == |s|
    decreases |s|
  {
    if |s| == 0 then [] else MapSeq(s[..|s| - 1], f) + [f(s[|s| - 1])]
  }

  /** Entry `i` of the mapped sequence is `f` of entry `i`. */
  lemma {:induction false} MapSeqAt<T, U>(s: seq<T>, f: T -> U, i: nat)
    requires i < |s|
    ensures MapSeq(s, f)[i] == f(s[i])
    decreases |s|
  {
    if i < |s| - 1 {
      MapSeqAt(s[..|s| - 1], f, i);
    }
  }

  /** Mapping a prefix gives the prefix of the mapped sequence. */
  lemma {:induction false} MapSeqPrefix<T, U>(s: seq<T>, f: T -> U, m: nat)
    requires m <= |s|
    ensures MapSeq(s, f)[..m] == MapSeq(s[..m], f)
    decreases |s|
  {
    if m < |s| {
      var init := s[..|s| - 1];
      assert MapSeq(s, f)[..m] == MapSeq(init, f)[..m];
      MapSeqPrefix(init, f, m);
      assert init[..m] == s[..m];
    } else {
      assert s[..m] == s;
    }
  }

  /** Filtering distributes over concatenation, so it never reorders what it keeps. */
  lemma {:induction false} FilterAppend<T>(s: seq<T>, t: seq<T>, keep: T -> bool)
    ensures Filter(s + t, keep) == Filter(s, keep) + Filter(t, keep)
    decreases |t|
  {
    if |t| > 0 {
      var t' := t[..|t| - 1];
      assert (s + t)[..|s + t| - 1] == s + t';
      FilterAppend(s, t', keep);
    } else {
      assert s + t == s;
    }
  }

  /**
   * The values `f` gives for the elements of `s`, skipping those it gives
   * nothing for, in order: a loop that pushes whatever each element yields.
   */
  function FilterMap<T, U>(s: seq<T>, f: T -> Option<U>): (r: seq<U>)
    ensures |r| <= |s|
    decreases |s|
  {
    if |s| == 0 then []
    else
      var init := FilterMap(s[..|s| - 1], f);
      match f(s[|s| - 1])
      case Some(u) => init + [u]
      case None => init
  }

  /** `u` is kept exactly when some element of `s` yields it. */
  lemma {:induction false} FilterMapMembers<T, U>(s: seq<T>, f: T -> Option<U>, u: U)
    ensures u in FilterMap(s, f) <==> exists i :: 0 <= i < |s| && f(s[i]) == Some(u)
    decreases |s|
  {
    if |s| > 0 {
      var n := |s| - 1;
      var init := s[..n];
      FilterMapMembers(init, f, u);
      assert u in FilterMap(s, f) <==> u in FilterMap(init, f) || f(s[n]) == Some(u);
      if exists i :: 0 <= i < |init| && f(init[i]) == Some(u) {
        var i :| 0 <= i < |init| && f(init[i]) == Some(u);
        assert s[i] == init[i];
      }
      if exists i :: 0 <= i < |s| && f(s[i]) == Some(u) {
        var i :| 0 <= i < |s| && f(s[i]) == Some(u);
        if i < n {
          assert init[i] == s[i];
        }
      }
    }
  }

  /** `f` gives nothing for the elements of `s` before index `i`. */
  ghost predicate NoneBefore<T, U>(s: seq<T>, f: T -> Option<U>, i: int)
    requires i <= |s|
  {
    forall j :: 0 <= j < i ==> f(s[j]).None?
  }

  /**
   * `iter().find_map(f)`: what `f` gives for the first element it gives
   * something for; elements after it are not looked at.
   */
  function FirstSome<T, U>(s: seq<T>, f: T -> Option<U>): (r: Option<U>)
    ensures r.None? <==> NoneBefore(s, f, |s|)
    ensures forall i :: 0 <= i < |s| && f(s[i]).Some? && NoneBefore(s, f, i) ==> r == f(s[i])
    decreases |s|
  {
    if |s| == 0 then None
    else if f(s[0]).Some? then f(s[0])
    else
      var tail := s[1..];
      var r := FirstSome(tail, f);
      assert forall i :: 1 <= i <= |s| ==> NoneBefore(s, f, i) == NoneBefore(tail, f, i - 1);
      r
  }

  /** What `FirstSome` finds, some element gives. */
  lemma {:induction false} FirstSomeFound<T, U>(s: seq<T>, f: T -> Option<U>)
    requires FirstSome(s, f).Some?
    ensures exists i :: 0 <= i < |s| && f(s[i]) == FirstSome(s, f)
    decreases |s|
  {
    if f(s[0]).None? {
      var tail := s[1..];
      FirstSomeFound(tail, f);
      var i :| 0 <= i < |tail| && f(tail[i]) == FirstSome(tail, f);
      assert s[i + 1] == tail[i];
    }
  }

  /** Every pair of elements of `s`, in order, is related by `le`. */
  ghost predicate SortedBy<T>(s: seq<T>, le: (T, T) -> bool) {
    forall i, j :: 0 <= i < j < |s| ==> le(s[i], s[j])
  }

  /** Filtering keeps a sorted sequence sorted. */
  lemma {:induction false} FilterKeepsSorted<T>(s: seq<T>, keep: T -> bool, le: (T, T) -> bool)
    requires SortedBy(s, le)
    ensures SortedBy(Filter(s, keep), le)
    decreases |s|
  {
    if |s| > 0 {
      var init := s[..|s| - 1];
      var last := s[|s| - 1];
      FilterKeepsSorted(init, keep, le);
      var f := Filter(init, keep);
      var r := Filter(s, keep);
      forall i, j | 0 <= i < j < |r|
        ensures le(r[i], r[j])
      {
        if j >= |f| {
          assert r[i] in init;
          var k :| 0 <= k < |init| && init[k] == r[i];
          assert s[k] == r[i] && s[|s| - 1] == r[j];
        }
      }
    }
  }
}

=== FILE: text.dfy ===
/**
 * The string primitives the analyzer relies on from Rust's standard library:
 * `char::is_whitespace`, `str::trim`, `str::starts_with`, `str::contains`,
 * `str::find`/`rfind` on a char, `str::lines` and the ordering of `String`.
 * Strings are sequences of Unicode scalar values, as Rust's `char` is.
 */
module Text {
  import opened Options

  /** Unicode White_Space, the class `str::trim`, `char::is_whitespace` and the regex `\s` share. */
  predicate IsWhitespace(c: char) {
    || ('\t' <= c <= '\r')
    || c == ' '
    || c == '\U{85}'
    || c == '\U{A0}'
    || c == '\U{1680}'
    || ('\U{2000}' <= c <= '\U{200A}')
    || c == '\U{2028}'
    || c == '\U{2029}'
    || c == '\U{202F}'
    || c == '\U{205F}'
    || c == '\U{3000}'
  }

  /** ASCII letters and digits; this model's stand-in for `char::is_alphanumeric`. */
  predicate IsAsciiAlphanumeric(c: char) {
    ('a' <= c <= 'z') || ('A' <= c <= 'Z') || ('0' <= c <= '9')
  }

  /** ASCII word characters; this model's stand-in for the regex class `\w` that `\b` is defined by. */
  predicate IsWordChar(c: char) {
    IsAsciiAlphanumeric(c) || c == '_'
  }

  predicate AllWhitespace(s: string) {
    forall i :: 0 <= i < |s| ==> IsWhitespace(s[i])
  }

  /** Neither end of `s` is whitespace: `s` is its own `trim`. */
  predicate IsTrimmed(s: string) {
    |s| == 0 || (!IsWhitespace(s[0]) && !IsWhitespace(s[|s| - 1]))
  }

  // ---------------------------------------------------------------------------
  // Prefixes and substrings

  predicate StartsWith(s: string, prefix: string) {
    |prefix| <= |s| && s[..|prefix|] == prefix
  }

  /** `t` occurs in `s` starting at index `i`. */
  predicate OccursAt(s: string, t: string, i: int) {
    0 <= i && i + |t| <= |s| && s[i..i + |t|] == t
  }

  /** `str::contains` with a string pattern. */
  predicate Contains(s: string, t: string)
    decreases |s|
  {
    StartsWith(s, t) || (|s| > 0 && Contains(s[1..], t))
  }

  /** `Contains` holds exactly when some position of `s` holds an occurrence of `t`. */
  lemma {:induction false} ContainsIff(s: string, t: string)
    ensures Contains(s, t) <==> exists i :: OccursAt(s, t, i)
    decreases |s|
  {
    if StartsWith(s, t) {
      assert OccursAt(s, t, 0);
    } else if |s| > 0 {
      ContainsIff(s[1..], t);
      if Contains(s[1..], t) {
        var i :| OccursAt(s[1..], t, i);
        assert s[1..][i..i + |t|] == s[i + 1..i + 1 + |t|];
        assert OccursAt(s, t, i + 1);
      } else {
        forall i | 1 <= i && OccursAt(s, t, i)
          ensures OccursAt(s[1..], t, i - 1)
        {
          assert s[1..][i - 1..i - 1 + |t|] == s[i..i + |t|];
        }
      }
    }
  }

  /** Any string containing `t` between two other strings contains `t`. */
  lemma ContainsInfix(a: string, t: string, b: string)
    ensures Contains(a + t + b, t)
  {
    var s := a + t + b;
    assert s[|a|..|a| + |t|] == t;
    assert OccursAt(s, t, |a|);
    ContainsIff(s, t);
  }

  /** Index of the first `c` in `s` (`str::find` with a char pattern). */
  function IndexOf(s: string, c: char): (i: nat)
    requires c in s
    ensures i < |s| && s[i] == c
    ensures c !in s[..i]
  {
    if s[0] == c then 0
    else
      var k := IndexOf(s[1..], c);
      assert s[..k + 1] == [s[0]] + s[1..][..k];
      k + 1
  }

  /** Index of the last `c` in `s` (`str::rfind` with a char pattern). */
  function LastIndexOf(s: string, c: char): (i: nat)
    requires c in s
    ensures i < |s| && s[i] == c
    ensures c !in s[i + 1..]
  {
    if s[|s| - 1] == c then |s| - 1
    else
      var k := LastIndexOf(s[..|s| - 1], c);
      assert s[k + 1..] == s[..|s| - 1][k + 1..] + [s[|s| - 1]];
      k
  }

  /** `str::strip_prefix`: what follows `prefix`, if `s` starts with it. */
  function StripPrefix(s: string, prefix: string): (r: Option<string>)
    ensures r.Some? <==> StartsWith(s, prefix)
    ensures r.Some? ==> s == prefix + r.value
  {
    if StartsWith(s, prefix) then
      assert s == s[..|prefix|] + s[|prefix|..];
      Some(s[|prefix|..])
    else None
  }

  /** `str::rsplit_once` with a char: the text before and after the last `c`. */
  function SplitLast(s: string, c: char): (r: Option<(string, string)>)
    ensures r.Some? <==> c in s
    ensures r.Some? ==> s == r.value.0 + [c] + r.value.1 && c !in r.value.1
  {
    if c in s then
      var k := LastIndexOf(s, c);
      assert s == s[..k] + [c] + s[k + 1..];
      Some((s[..k], s[k + 1..]))
    else None
  }

  /** Splitting at the last `c` undoes joining with a `c` when the right part has none. */
  lemma SplitLastRoundTrip(a: string, c: char, b: string)
    requires c !in b
    ensures SplitLast(a + [c] + b, c) == Some((a, b))
  {
    var s := a + [c] + b;
    var r := SplitLast(s, c);
    var a', b' := r.value.0, r.value.1;
    assert s[|a|] == c && s[|a| + 1..] == b;
    assert s[|a'|] == c && s[|a'| + 1..] == b';
    assert |a'| == |a|;
    assert b' == b;
    assert a' == s[..|a|] == a;
  }

  /**
   * `s.strip_prefix(prefix)` followed by `find(quote)` on the remainder: the
   * text between a leading `prefix` and the first `quote` after it.
   */
  function Between(s: string, prefix: string, quote: char): (r: Option<string>)
    ensures r.Some? <==> StartsWith(s, prefix) && quote in s[|prefix|..]
    ensures r.Some? ==> StartsWith(s, prefix + r.value + [quote]) && quote !in r.value
  {
    if StartsWith(s, prefix) && quote in s[|prefix|..] then
      var rest := s[|prefix|..];
      var i := IndexOf(rest, quote);
      assert s[..|prefix| + i + 1] == prefix + rest[..i] + [quote];
      Some(rest[..i])
    else None
  }

  /** `Between` gives back the text it finds between `prefix` and a `quote` that text does not contain. */
  lemma BetweenRoundTrip(prefix: string, t: string, quote: char, rest: string)
    requires quote !in t
    ensures Between(prefix + t + [quote] + rest, prefix, quote) == Some(t)
  {
    var s := prefix + t + [quote] + rest;
    assert s[..|prefix|] == prefix;
    var after := s[|prefix|..];
    assert after == t + [quote] + rest;
    assert after[..|t|] == t;
    assert after[|t|] == quote;
    assert IndexOf(after, quote) == |t|;
  }

  // ---------------------------------------------------------------------------
  // Trimming

  /** `str::trim_start`. */
  function TrimStart(s: string): (r: string)
    ensures |r| <= |s| && r == s[|s| - |r|..]
    ensures AllWhitespace(s[..|s| - |r|])
    ensures |r| == 0 || !IsWhitespace(r[0])
    decreases |s|
  {
    if |s| > 0 && IsWhitespace(s[0]) then
      var r := TrimStart(s[1..]);
      assert s[..|s| - |r|] == [s[0]] + s[1..][..|s| - 1 - |r|];
      r
    else s
  }

  /** `str::trim_end`. */
  function TrimEnd(s: string): (r: string)
    ensures |r| <= |s| && r == s[..|r|]
    ensures AllWhitespace(s[|r|..])
    ensures |r| == 0 || !IsWhitespace(r[|r| - 1])
    decreases |s|
  {
    if |s| > 0 && IsWhitespace(s[|s| - 1]) then
      var r := TrimEnd(s[..|s| - 1]);
      assert s[|r|..] == s[..|s| - 1][|r|..] + [s[|s| - 1]];
      r
    else s
  }

  /** Number of whitespace characters `str::trim` removes from the front of `s`: the longest whitespace prefix. */
  function Lead(s: string): (n: nat)
    ensures n <= |s| && AllWhitespace(s[..n])
    ensures n == |s| || !IsWhitespace(s[n])
  {
    var u := TrimStart(s);
    assert |u| > 0 ==> u[0] == s[|s| - |u|];
    |s| - |u|
  }

  /** A slice of a suffix is a slice of the whole, and the suffix's tail is the whole's. */
  lemma TrimParts(s: string, u: string, r: string)
    requires |u| <= |s| && u == s[|s| - |u|..]
    requires |r| <= |u| && r == u[..|r|] && AllWhitespace(u[|r|..])
    requires |u| == 0 || !IsWhitespace(u[0])
    ensures var k := |s| - |u|; r == s[k..k + |r|] && AllWhitespace(s[k + |r|..])
    ensures |r| == 0 || !IsWhitespace(r[0])
  {
    var k := |s| - |u|;
    assert s[k + |r|..] == u[|r|..];
    assert |r| > 0 ==> r[0] == u[0];
  }

  /**
   * `str::trim`: the result is the slice of `s` between a whitespace-only
   * prefix and a whitespace-only suffix, and neither of its ends is whitespace.
   */
  function Trim(s: string): (r: string)
    ensures IsTrimmed(r)
    ensures Lead(s) + |r| <= |s| && r == s[Lead(s)..Lead(s) + |r|]
    ensures AllWhitespace(s[..Lead(s)]) && AllWhitespace(s[Lead(s) + |r|..])
  {
    var u := TrimStart(s);
    var r := TrimEnd(u);
    assert Lead(s) == |s| - |u|;
    TrimParts(s, u, r);
    r
  }

  lemma {:induction false} TrimStartPadded(a: string, u: string)
    requires AllWhitespace(a)
    requires |u| == 0 || !IsWhitespace(u[0])
    ensures TrimStart(a + u) == u
    decreases |a|
  {
    if |a| > 0 {
      assert (a + u)[1..] == a[1..] + u;
      TrimStartPadded(a[1..], u);
    } else {
      assert a + u == u;
    }
  }

  lemma {:induction false} TrimEndPadded(u: string, b: string)
    requires AllWhitespace(b)
    requires |u| == 0 || !IsWhitespace(u[|u| - 1])
    ensures TrimEnd(u + b) == u
    decreases |b|
  {
    if |b| > 0 {
      assert (u + b)[..|u + b| - 1] == u + b[..|b| - 1];
      TrimEndPadded(u, b[..|b| - 1]);
    } else {
      assert u + b == u;
    }
  }

  /** Trimming undoes whitespace padding: `trim(a + t + b) == t` for a trimmed `t`. */
  lemma TrimPadded(a: string, t: string, b: string)
    requires AllWhitespace(a) && AllWhitespace(b) && IsTrimmed(t)
    ensures Trim(a + t + b) == t
  {
    if |t| == 0 {
      assert a + t + b == a + b;
      assert AllWhitespace(a + b);
      TrimStartPadded(a + b, []);
      assert a + b == (a + b) + [];
    } else {
      assert a + t + b == a + (t + b);
      TrimStartPadded(a, t + b);
      TrimEndPadded(t, b);
    }
  }

  /** A trimmed string is its own `trim`; in particular `trim` is idempotent. */
  lemma TrimOfTrimmed(t: string)
    requires IsTrimmed(t)
    ensures Trim(t) == t
  {
    TrimPadded([], t, []);
    assert [] + t + [] == t;
  }

  /** A character absent from `s` is absent from its trimmed form. */
  lemma TrimKeepsAbsent(s: string, c: char)
    requires c !in s
    ensures c !in Trim(s)
  {
    var t := Trim(s);
    assert forall i :: 0 <= i < |t| ==> t[i] == s[Lead(s) + i];
  }

  lemma TrimIdempotent(s: string)
    ensures Trim(Trim(s)) == Trim(s)
  {
    TrimOfTrimmed(Trim(s));
  }

  // ---------------------------------------------------------------------------
  // Lines

  /** Drops one `'\r'` at the end of `s`, as `str::lines` does before each `'\n'`. */
  function StripCr(s: string): string {
    if |s| > 0 && s[|s| - 1] == '\r' then s[..|s| - 1] else s
  }

  /**
   * `str::lines`: split at each `'\n'`, dropping a `'\r'` right before it; the
   * final line needs no terminator, and an empty final piece is not a line.
   */
  function Lines(s: string): (r: seq<string>)
    ensures forall k :: 0 <= k < |r| ==> '\n' !in r[k]
    decreases |s|
  {
    if |s| == 0 then []
    else if '\n' in s then
      var i := IndexOf(s, '\n');
      [StripCr(s[..i])] + Lines(s[i + 1..])
    else [s]
  }

  /** The inverse of `Lines`: each line followed by a `'\n'`. */
  function Unlines(ls: seq<string>): string {
    if |ls| == 0 then [] else ls[0] + "\n" + Unlines(ls[1..])
  }

  lemma LinesCons(a: string, b: string)
    requires '\n' !in a
    ensures Lines(a + "\n" + b) == [StripCr(a)] + Lines(b)
  {
    var s := a + "\n" + b;
    assert s[|a|] == '\n';
    var i := IndexOf(s, '\n');
    assert s[..i] == a;
    assert s[i + 1..] == b;
  }

  /** A line that `Lines` can give back unchanged. */
  predicate IsPlainLine(l: string) {
    '\n' !in l && (|l| == 0 || l[|l| - 1] != '\r')
  }

  lemma {:induction false} LinesOfUnlines(ls: seq<string>)
    requires forall k :: 0 <= k < |ls| ==> IsPlainLine(ls[k])
    ensures Lines(Unlines(ls)) == ls
    decreases |ls|
  {
    if |ls| > 0 {
      LinesCons(ls[0], Unlines(ls[1..]));
      LinesOfUnlines(ls[1..]);
      assert StripCr(ls[0]) == ls[0];
    }
  }

  lemma {:induction false} UnlinesOfLines(s: string)
    requires '\r' !in s
    requires |s| == 0 || s[|s| - 1] == '\n'
    ensures Unlines(Lines(s)) == s
    decreases |s|
  {
    if |s| > 0 {
      var i := IndexOf(s, '\n');
      var a, b := s[..i], s[i + 1..];
      assert s == a + "\n" + b;
      assert forall c :: c in a || c in b ==> c in s;
      assert StripCr(a) == a;
      LinesCons(a, b);
      UnlinesOfLines(b);
      assert Lines(s) == [a] + Lines(b);
      assert Unlines([a] + Lines(b)) == a + "\n" + Unlines(Lines(b));
    }
  }

  // ---------------------------------------------------------------------------
  // Ordering

  /** `String`'s `Ord`: lexicographic, a proper prefix first (UTF-8 byte order is code point order). */
  predicate LessEq(a: string, b: string)
    decreases |a|
  {
    |a| == 0 || (|b| > 0 && (a[0] < b[0] || (a[0] == b[0] && LessEq(a[1..], b[1..]))))
  }

  lemma {:induction false} LessEqReflexive(a: string)
    ensures LessEq(a, a)
    decreases |a|
  {
    if |a| > 0 {
      LessEqReflexive(a[1..]);
    }
  }

  lemma {:induction false} LessEqTotal(a: string, b: string)
    ensures LessEq(a, b) || LessEq(b, a)
    decreases |a|
  {
    if |a| > 0 && |b| > 0 && a[0] == b[0] {
      LessEqTotal(a[1..], b[1..]);
    }
  }

  lemma {:induction false} LessEqTransitive(a: string, b: string, c: string)
    requires LessEq(a, b) && LessEq(b, c)
    ensures LessEq(a, c)
    decreases |a|
  {
    if |a| > 0 && a[0] == b[0] && b[0] == c[0] {
      LessEqTransitive(a[1..], b[1..], c[1..]);
    }
  }

  lemma {:induction false} LessEqAntisymmetric(a: string, b: string)
    requires LessEq(a, b) && LessEq(b, a)
    ensures a == b
    decreases |a|
  {
    if |a| > 0 {
      LessEqAntisymmetric(a[1..], b[1..]);
      assert a == [a[0]] + a[1..];
      assert b == [b[0]] + b[1..];
    }
  }
}
